=== FILE: README.md ===
# MCPTool constructor conversion, modelled in Dafny

MCPRepl.jl ships two Python scripts that port Julia tool definitions from the
`MCPTool(...)` constructor to the `@mcp_tool(...)` macro. Each one runs two `re.sub`
passes over the text of a source file:

- **Pass 1, the declaration rewriter.** It finds `<var> = MCPTool(`, then whitespace
  holding a newline, then `"<name>",`, then whitespace ending in a newline. That span
  becomes `<var> = @mcp_tool(:<symbol>,` followed by a tail. The symbol is the name with
  every `-` turned into `_`.
- **Pass 2, the trailing-comma normalizer.** It turns `\n<ws>end,<ws with a newline>)`
  into `\n<ws>end\n<ws>)`, so the handler's `end` is no longer followed by a comma.

The scripts differ in three places:

- **Variable.** `convert_tool` in convert_tools.py accepts only a variable ending in
  `_tool` and a literal ` = `. The text transformation in convert_mcprepl_tools.py's
  `convert_file` accepts any word run, with optional whitespace around `=`.
- **Header tail.** The header ends in one space in the first script. In the second it
  ends in a newline and eight spaces.
- **Closing parenthesis.** The first script keeps the indentation found before `)`. The
  second puts `)` at four spaces.

The model has these modules:

- **`Chars`:** character classes, maximal runs and occurrences. Python's `\w` and `\s`
  are approximated by ASCII.
- **`Declaration`:** the pass-1 sentences as a datatype, `Decl` with its `Opening`, and
  hand-coded matchers for the two patterns. `MatchToolsDecl` and `MatchReplDecl`
  reproduce the greedy and backtracking choices Python's `re` makes. `MatchReplDecl` is
  proved sound and complete against the datatype's `WellFormed` predicate, and
  `MatchToolsDecl` against its narrower `ToolsForm`.
- **`Headers`:** the symbol and the two replacement headers. It also proves that no
  pass-1 match can begin inside a header.
- **`TrailingComma`:** the pass-2 sentence (`BlockEnd`), its matcher and the two
  closings that can replace it.
- **`Substitution`:** `re.sub` for a pattern that never matches the empty text.
  - `Sub` is a recursive reference definition.
  - `ReSub` is the scanning loop, which searches, copies, splices and resumes after the
    match. It is proved equal to `Sub`.
- **`Rewrite` and `Cleanup`:** the facts about pass 1 and pass 2 that hold for either
  script.
- **`ConvertTools`:** `convert_tool` as the composition `ConvertTool`.
- **`ConvertMcpreplTools`:** the text transformation of `convert_file` as `Convert`.

A variable without the `_tool` suffix, as in `tool = MCPTool(\n    "fetch-data",\n`,
is not rewritten by convert_tools.py. It is rewritten by convert_mcprepl_tools.py
(`ConvertTools.UntypedNameSkipped`, `ConvertTools.UntypedNameMatchedByRepl`).

Pass 1 of convert_mcprepl_tools.py is not idempotent. In `Witness`,
`a = MCPTool(\n"x = MCPTool(\n"n",\n",\n`, the outer opening's quoted name is cut short
by the inner sentence's quote, so only the inner sentence matches. The first pass gives
`a = MCPTool(\n"x = @mcp_tool(:n,\n        ",\n`. There the quoted name runs on to the
final `",`, so a second pass matches at 0 and rewrites again
(`ConvertMcpreplTools.DeclPassNotIdempotent`). The same shape with `_tool` variables,
`a_tool = MCPTool(\n"x_tool = MCPTool(\n"n",\n",\n`, does the same to pass 1 of
convert_tools.py; the model proves only the convert_mcprepl_tools.py instance.

## Model

| member | source | states |
|---|---|---|
| Headers.ToSymbol | convert_tools.py:18-19 | The symbol has the name's length. At every position a `-` becomes `_`; every other character is kept. |
| Headers.SymbolShape | convert_tools.py:18-19 | The symbol holds no `-`. It has `_` exactly where the name had `-` or `_`, and agrees with the name everywhere else. |
| Headers.SymbolUnderscores | convert_mcprepl_tools.py:15-16 | The symbol counts as many `_` as the name counts `-` and `_` together, and no `-`. |
| Headers.SymbolWithoutHyphens | convert_mcprepl_tools.py:15-16 | A name without `-` is its own symbol, so existing underscores are kept. |
| Headers.SymbolIdempotent | convert_tools.py:19 | Converting a symbol again changes nothing. |
| Declaration.MatchOpeningSound | convert_tools.py:12 | The opening the matcher finds at `i` is well formed and is the text at `i`. Well formed means `MCPTool(`, whitespace holding a newline, a non-empty quote-free name in quotes, `,`, and whitespace ending in a newline. |
| Declaration.OpeningComplete | convert_tools.py:12 | Every well-formed opening at `i` is found, with the same gap and name. The trail found is at least as long, because the final `\s*\n` is greedy. |
| Declaration.MatchToolsDeclSound | convert_tools.py:12 | A convert_tools.py match is a word run ending in `_tool` (at least six characters), ` = ` and a well-formed opening, heading the text. |
| Declaration.ToolsDeclComplete | convert_tools.py:12 | Every such sentence heading a text is matched, with the same variable, gap and name. |
| Declaration.MatchReplDeclSound | convert_mcprepl_tools.py:10 | A convert_mcprepl_tools.py match is a non-empty word run, whitespace, `=`, whitespace and a well-formed opening, heading the text. |
| Declaration.ReplDeclComplete | convert_mcprepl_tools.py:10 | Every such sentence heading a text is matched, with the same variable, spacing, gap and name. |
| Declaration.SentenceHasNewline | convert_mcprepl_tools.py:9-10 | Every pass-1 sentence spans a line break. |
| Headers.ToolsHeaderNotRematched | convert_tools.py:12-22 | The convert_tools.py pattern matches at no position inside a header, whatever text follows it. |
| Headers.ReplHeaderNotRematched | convert_mcprepl_tools.py:10-17 | The convert_mcprepl_tools.py pattern matches at no position inside its header, whatever text follows it. |
| Headers.HeaderReadBack | convert_tools.py:14-22 | The header of a well-formed sentence reads back as that sentence's own variable (the word run before ` = @mcp_tool(:`) and the symbol of its name. |
| Headers.ReadHeaderSound | convert_mcprepl_tools.py:12-17 | Whatever the reader accepts is a header: a non-empty word run, ` = @mcp_tool(:`, the symbol, `,` and the tail. |
| TrailingComma.MatchBlockEndSound | convert_tools.py:28 | A pass-2 match heads the text. It is `\n`, non-empty whitespace, `end,`, whitespace holding a newline, and `)`. |
| TrailingComma.MatchBlockEndComplete | convert_tools.py:28 | Every such block end heading a text is matched, exactly. |
| TrailingComma.KeepIndentCloseDeletes | convert_tools.py:27-28 | `\1\n\2` is the block end with the comma and the gap up to its last newline cut out. The cut is `,` plus whitespace, so the text gets shorter. No newline remains before `)`. |
| TrailingComma.FixedIndentCloseReplaces | convert_mcprepl_tools.py:21-23 | `\1\n    )` keeps `\n<indent>end` and replaces the rest, `,` + gap + `)`, with `\n    )`. |
| TrailingComma.BlockEndAvoidsClose | convert_tools.py:28 | No block end overlaps a closing written by either script's pass 2. |
| Substitution.Search | convert_tools.py:25 | The index returned is the leftmost match at or after `i`, or the end of the text. |
| Substitution.ReSub | convert_tools.py:25 | The scanning loop computes `Sub`. The loop copies up to the leftmost match, writes its replacement, and resumes after the match. |
| Substitution.SubAtFirst | convert_mcprepl_tools.py:19 | The text before the leftmost match is copied and the match is replaced; the rest is substituted in turn. |
| Substitution.SubNoMatch | convert_mcprepl_tools.py:19 | Text without a match is returned unchanged. |
| Cleanup.SubBlockFree | convert_tools.py:28 | With a finder that recognizes exactly the block ends, the output holds no block end anywhere. |
| Cleanup.SubIdempotent | convert_mcprepl_tools.py:23 | With a finder that recognizes exactly the block ends, substituting twice equals substituting once. |
| Rewrite.DeclPassNotRematched | convert_tools.py:25 | Where the matcher fails inside its header, no match begins inside the header that replaced the first match. |
| ConvertTools.DeclPassRewritesFirst | convert_tools.py:14-25 | Pass 1 copies the text before the leftmost match. The match is a `_tool` sentence, replaced by the variable, ` = @mcp_tool(:`, the symbol and `, `. The pass resumes after the match. |
| ConvertTools.DeclPassRewritesSentence | convert_tools.py:11-25 | A well-formed `_tool` sentence with no match before it is rewritten into the header of its own variable and symbol. The match found there is well formed and occurs at that position, with the sentence's gap and a trail at least as long. The pass resumes right after that match. |
| ConvertTools.LeftmostMatchStartsWord | convert_tools.py:12-25 | The leftmost match never starts just after a word character, so the variable it captures is the whole word run before ` = `. |
| ConvertTools.DeclPassCopies | convert_tools.py:25 | Text the pattern matches nowhere passes through pass 1 unchanged. |
| ConvertTools.HeaderNotRematched | convert_tools.py:22-25 | In pass 1's output no match begins inside the header written for the first match. |
| ConvertTools.CommaPassRewritesFirst | convert_tools.py:28 | Pass 2 copies the text before the leftmost block end. It writes `\n<indent>end\n`, the last line of the gap, and `)`, then resumes after the block end. |
| ConvertTools.CommaPassShortens | convert_tools.py:27-28 | Pass 2 never lengthens the text. It keeps the length exactly when there is no block end. |
| ConvertTools.CommaPassLeavesNoBlockEnd | convert_tools.py:27-28 | Pass 2's output holds no block end and matches the pass-2 pattern nowhere. |
| ConvertTools.CommaPassIdempotent | convert_tools.py:27-28 | Running pass 2 twice equals running it once. |
| ConvertTools.ConvertToolCopies | convert_tools.py:8-30 | Text that neither pattern matches is returned unchanged by `convert_tool`. |
| ConvertTools.SingleLineUnchanged | convert_tools.py:11-12 | Text without a newline, such as `x_tool = MCPTool("a", h)`, is returned unchanged. |
| ConvertTools.UntypedNameSkipped | convert_tools.py:12 | `tool = MCPTool(\n    "fetch-data",\n` is not a match, whatever follows. |
| ConvertTools.UntypedNameMatchedByRepl | convert_mcprepl_tools.py:10 | The same sentence is a convert_mcprepl_tools.py match, whatever follows. |
| ConvertMcpreplTools.DeclPassRewritesFirst | convert_mcprepl_tools.py:12-19 | Pass 1 copies the text before the leftmost match. The match is replaced by the variable, ` = @mcp_tool(:`, the symbol, `,`, a newline and eight spaces; the spacing around `=` is dropped. The pass resumes after the match. |
| ConvertMcpreplTools.DeclPassRewritesSentence | convert_mcprepl_tools.py:8-19 | A well-formed sentence with any spacing around `=`, and no match before it, is rewritten into a header with exactly ` = `. The match found there is well formed and occurs at that position, with the sentence's spacing, gap and name and a trail at least as long. The pass resumes right after that match. |
| ConvertMcpreplTools.LeftmostMatchStartsWord | convert_mcprepl_tools.py:10-19 | The leftmost match never starts just after a word character, so the variable it captures is the whole word run before the `=`. |
| ConvertMcpreplTools.DeclPassCopies | convert_mcprepl_tools.py:19 | Text the pattern matches nowhere passes through pass 1 unchanged. |
| ConvertMcpreplTools.HeaderNotRematched | convert_mcprepl_tools.py:17-19 | In pass 1's output no match begins inside the header written for the first match. |
| ConvertMcpreplTools.ToolsMatchIsReplMatch | convert_mcprepl_tools.py:10 | Every convert_tools.py match is also a match here, and the very same sentence: same variable, ` = ` spacing, gap, name and trail. |
| ConvertMcpreplTools.CommaPassRewritesFirst | convert_mcprepl_tools.py:21-23 | Pass 2 keeps `\n<indent>end` from the text. It replaces the comma, the gap and `)` with exactly `\n    )`, then resumes after the block end. |
| ConvertMcpreplTools.CommaPassLeavesNoBlockEnd | convert_mcprepl_tools.py:21-23 | Pass 2's output holds no block end and matches the pass-2 pattern nowhere. |
| ConvertMcpreplTools.CommaPassIdempotent | convert_mcprepl_tools.py:21-23 | Running pass 2 twice equals running it once. |
| ConvertMcpreplTools.ConvertCopies | convert_mcprepl_tools.py:19-23 | Text that neither pattern matches is written back unchanged. |
| ConvertMcpreplTools.DeclPassNotIdempotent | convert_mcprepl_tools.py:10-19 | Pass 1 run twice on `Witness` differs from pass 1 run once: the header written for the inner sentence becomes the quoted name of the outer opening, which the second pass rewrites. |
| ConvertMcpreplTools.SingleLineUnchanged | convert_mcprepl_tools.py:9-10 | Text without a newline, such as `x = MCPTool("a", h)`, is written back unchanged. |

## Left out

- Reading and writing the file, `sys.argv`, the default path `src/lsp.jl`, the usage
  message and the printed confirmations. This is I/O, so `Convert` and `ConvertTool`
  take and return the text.
- `re` as a general engine. Only the four fixed patterns are modelled, each as a
  hand-coded matcher that makes the same greedy and backtracking choices.
- Unicode `\w` and `\s`. The model uses `[A-Za-z0-9_]` and space, `\t`, `\n`, `\v`,
  `\f`, `\r`.
- The count of `MCPTool(` in pass 1's output. Each match loses its keyword's
  `MCPTool(` and the header adds none, but a quoted name that contains `MCPTool(` keeps
  it in the symbol; that count is not proved. The model proves that no match begins
  inside a header (`HeaderNotRematched`) and that pass 1 can still match across a
  header (`DeclPassNotIdempotent`).
- What the rewritten text means as Julia.

=== FILE: chars.dfy ===
/** A minimal optional value, used for "the pattern matched here / it did not". */
module Optional {

  datatype Option<T> = None | Some(value: T)
}

/**
 Character classes, maximal runs and occurrences: the building blocks from which
 the fixed regular expressions of the conversion scripts are hand-coded.

 Python's `\w` and `\s` are Unicode classes; here they are restricted to ASCII.
 */
module Chars {

  /** The characters `\w` matches: `[A-Za-z0-9_]`. */
  predicate IsWordChar(c: char) {
    ('a' <= c <= 'z') || ('A' <= c <= 'Z') || ('0' <= c <= '9') || c == '_'
  }

  /** The characters `\s` matches: space, and tab, newline, vertical tab, form feed and
      carriage return, which are the consecutive code points 9 to 13. */
  predicate IsSpace(c: char) {
    c == ' ' || '\t' <= c <= '\r'
  }

  /** The three classes a pattern repeats over: `\w`, `\s` and `[^"]`. */
  datatype CharClass = Word | Space | NotQuote {

    predicate Has(c: char) {
      match this
      case Word => IsWordChar(c)
      case Space => IsSpace(c)
      case NotQuote => c != '"'
    }
  }

  /** Every character of `s` is in `cls`. */
  predicate AllIn(s: string, cls: CharClass) {
    forall k :: 0 <= k < |s| ==> cls.Has(s[k])
  }

  /** End of the longest run of `cls` starting at `i`: where a greedy `cls*` stops. */
  function RunEnd(s: string, i: nat, cls: CharClass): (j: nat)
    requires i <= |s|
    ensures i <= j <= |s|
    ensures j < |s| ==> !cls.Has(s[j])
    decreases |s| - i
  {
    if i == |s| || !cls.Has(s[i]) then i else RunEnd(s, i + 1, cls)
  }

  /** Everything `RunEnd` skips is in the class: the run is a run. */
  lemma {:induction false} RunEndRun(s: string, i: nat, cls: CharClass)
    requires i <= |s|
    ensures forall k :: i <= k < RunEnd(s, i, cls) ==> cls.Has(s[k])
    decreases |s| - i
  {
    if i < |s| && cls.Has(s[i]) {
      RunEndRun(s, i + 1, cls);
    }
  }

  /** `t` is found in `s` at index `i`. */
  predicate Occurs(t: string, s: string, i: nat) {
    i + |t| <= |s| && s[i..i + |t|] == t
  }

  /** Occurring at the head of a suffix is occurring at the suffix's offset. */
  lemma {:induction false} OccursInSuffix(t: string, s: string, i: nat)
    requires i <= |s|
    ensures Occurs(t, s[i..], 0) <==> Occurs(t, s, i)
  {
    if Occurs(t, s, i) {
      assert forall k :: 0 <= k < |t| ==> s[i..][k] == s[i + k];
    }
  }

  /** An occurrence of `t` at `i > 0` in `s[i..]` extends to one of `s[i - 1]` and `t`
      at `i - 1`. */
  lemma {:induction false} WidenOccurs(t: string, s: string, i: nat)
    requires 0 < i <= |s| && Occurs(t, s[i..], 0)
    ensures Occurs([s[i - 1]] + t, s[i - 1..], 0)
  {
    assert s[i - 1..][..1 + |t|] == [s[i - 1]] + s[i..][..|t|];
  }

  /** One character of an occurrence. */
  lemma {:induction false} OccursChar(t: string, s: string, i: nat, k: nat)
    requires Occurs(t, s, i) && k < |t|
    ensures s[i + k] == t[k]
  {
  }

  /** A character of an occurrence is a character of the text. */
  lemma {:induction false} OccursHasChar(t: string, s: string, i: nat, ch: char)
    requires Occurs(t, s, i) && ch in t
    ensures ch in s
  {
    var k :| 0 <= k < |t| && t[k] == ch;
    assert s[i + k] == ch;
  }

  /** The first `m` characters of an occurrence are the text's own at that place. */
  lemma {:induction false} OccursHead(t: string, s: string, p: nat, m: nat)
    requires Occurs(t, s, p) && m <= |t|
    ensures s[p..p + m] == t[..m]
  {
    assert s[p..p + m] == s[p..p + |t|][..m];
  }

  /** An occurrence that ends by `n` survives cutting `s` at `n`. */
  lemma {:induction false} OccursInPrefix(t: string, s: string, i: nat, n: nat)
    requires Occurs(t, s, i) && i + |t| <= n <= |s|
    ensures Occurs(t, s[..n], i)
  {
  }

  /** An occurrence at `i` that ends by `j` is a prefix of `s[i..j]`. */
  lemma {:induction false} OccursIsPrefix(t: string, s: string, i: nat, j: nat)
    requires Occurs(t, s, i) && i + |t| <= j <= |s|
    ensures t <= s[i..j]
  {
    assert s[i..j][..|t|] == s[i..i + |t|];
  }

  /** An occurrence inside an occurrence is an occurrence in the outer text. */
  lemma {:induction false} OccursWithin(t: string, u: string, s: string, j: nat, i: nat)
    requires Occurs(t, u, j) && Occurs(u, s, i)
    ensures Occurs(t, s, i + j)
  {
    forall k | 0 <= k < |t|
      ensures s[i + j + k] == t[k]
    {
      assert u[j + k] == t[k];
      assert s[i + (j + k)] == u[j + k];
    }
  }

  /** A text all in a class puts only characters of the class where it occurs. */
  lemma {:induction false} OccursAllIn(t: string, s: string, i: nat, cls: CharClass)
    requires Occurs(t, s, i) && AllIn(t, cls)
    ensures forall k :: i <= k < i + |t| ==> cls.Has(s[k])
  {
    forall k | i <= k < i + |t|
      ensures cls.Has(s[k])
    {
      OccursChar(t, s, i, k - i);
    }
  }

  /** An occurrence that ends by `n` is also one in any text that agrees up to `n`. */
  lemma {:induction false} OccursInCommonPrefix(t: string, x: string, y: string, p: nat, n: nat)
    requires Occurs(t, x, p) && p + |t| <= n <= |x| && n <= |y| && x[..n] == y[..n]
    ensures Occurs(t, y, p)
  {
    forall k | 0 <= k < |t|
      ensures y[p + k] == t[k]
    {
      assert x[..n][p + k] == y[..n][p + k];
    }
  }

  /** An occurrence past the end of `u` is an occurrence in what follows `u`. */
  lemma {:induction false} OccursPast(t: string, u: string, y: string, p: nat)
    requires Occurs(t, u + y, p) && |u| <= p
    ensures Occurs(t, y, p - |u|)
  {
    forall k | 0 <= k < |t|
      ensures y[p - |u| + k] == t[k]
    {
      assert (u + y)[p + k] == y[p + k - |u|];
    }
  }

  /** An occurrence is the slice at its place. */
  lemma {:induction false} OccursSlice(t: string, s: string, i: nat)
    requires Occurs(t, s, i)
    ensures s[i..i + |t|] == t
  {
  }

  /** The slice `s[i..j]` occurs at `i`. */
  lemma {:induction false} SliceOccurs(s: string, i: nat, j: nat)
    requires i <= j <= |s|
    ensures Occurs(s[i..j], s, i)
  {
  }

  /** Two adjacent occurrences form one occurrence of the concatenation. */
  lemma {:induction false} Glue(a: string, b: string, s: string, i: nat)
    requires Occurs(a, s, i) && Occurs(b, s, i + |a|)
    ensures Occurs(a + b, s, i)
  {
    forall k | 0 <= k < |a + b|
      ensures s[i + k] == (a + b)[k]
    {
      if k >= |a| {
        assert s[i + |a| + (k - |a|)] == b[k - |a|];
      }
    }
  }

  /** Six adjacent occurrences form one occurrence of their right-nested concatenation. */
  lemma {:induction false} Glue6(a: string, b: string, c: string, d: string, e: string, f: string, s: string, i: nat)
    requires Occurs(a, s, i) && Occurs(b, s, i + |a|) && Occurs(c, s, i + |a| + |b|)
    requires Occurs(d, s, i + |a| + |b| + |c|) && Occurs(e, s, i + |a| + |b| + |c| + |d|)
    requires Occurs(f, s, i + |a| + |b| + |c| + |d| + |e|)
    ensures Occurs(a + (b + (c + (d + (e + f)))), s, i)
  {
    var ef := e + f;
    Glue(e, f, s, i + |a| + |b| + |c| + |d|);
    Glue4(a, b, c, d, ef, s, i);
  }

  /** `Glue6` with its last two parts already glued. */
  lemma {:induction false} Glue4(a: string, b: string, c: string, d: string, e: string, s: string, i: nat)
    requires Occurs(a, s, i) && Occurs(b, s, i + |a|) && Occurs(c, s, i + |a| + |b|)
    requires Occurs(d, s, i + |a| + |b| + |c|) && Occurs(e, s, i + |a| + |b| + |c| + |d|)
    ensures Occurs(a + (b + (c + (d + e))), s, i)
  {
    var de := d + e;
    Glue(d, e, s, i + |a| + |b| + |c|);
    var cde := c + de;
    Glue(c, de, s, i + |a| + |b|);
    Glue(b, cde, s, i + |a|);
    Glue(a, b + cde, s, i);
  }

  /** An occurrence of a right-nested concatenation of six is six adjacent occurrences. */
  lemma {:induction false} Unglue6(a: string, b: string, c: string, d: string, e: string, f: string, s: string, i: nat)
    requires Occurs(a + (b + (c + (d + (e + f)))), s, i)
    ensures Occurs(a, s, i) && Occurs(b, s, i + |a|) && Occurs(c, s, i + |a| + |b|)
    ensures Occurs(d, s, i + |a| + |b| + |c|) && Occurs(e, s, i + |a| + |b| + |c| + |d|)
    ensures Occurs(f, s, i + |a| + |b| + |c| + |d| + |e|)
  {
    Unglue(a, b + (c + (d + (e + f))), s, i);
    Unglue(b, c + (d + (e + f)), s, i + |a|);
    Unglue(c, d + (e + f), s, i + |a| + |b|);
    Unglue(d, e + f, s, i + |a| + |b| + |c|);
    Unglue(e, f, s, i + |a| + |b| + |c| + |d|);
  }

  /** An occurrence of a concatenation is two adjacent occurrences. */
  lemma {:induction false} Unglue(a: string, b: string, s: string, i: nat)
    requires Occurs(a + b, s, i)
    ensures Occurs(a, s, i) && Occurs(b, s, i + |a|)
  {
    forall k | 0 <= k < |a|
      ensures s[i + k] == a[k]
    {
      assert s[i + k] == (a + b)[k];
    }
    forall k | 0 <= k < |b|
      ensures s[i + |a| + k] == b[k]
    {
      assert s[i + (|a| + k)] == (a + b)[|a| + k];
    }
  }

  /** A run of `cls` occurring at `i` never outgrows the greedy run from `i`, and a run
      that stops where `s` leaves the class is the greedy run itself. */
  lemma {:induction false} RunEndCovers(s: string, i: nat, x: string, cls: CharClass)
    requires Occurs(x, s, i) && AllIn(x, cls)
    ensures i + |x| <= RunEnd(s, i, cls)
    ensures i + |x| < |s| && !cls.Has(s[i + |x|]) ==> RunEnd(s, i, cls) == i + |x|
  {
    forall m | i <= m < i + |x|
      ensures cls.Has(s[m])
    {
      assert s[i + (m - i)] == x[m - i];
    }
    RunEndPast(s, i, i + |x|, cls);
  }

  /** The greedy run from `i` reaches at least `m` when everything in between is in the
      class, and stops exactly at `m` when `s[m]` is not. */
  lemma {:induction false} RunEndPast(s: string, i: nat, m: nat, cls: CharClass)
    requires i <= m <= |s|
    requires forall k :: i <= k < m ==> cls.Has(s[k])
    ensures m <= RunEnd(s, i, cls)
    ensures m < |s| && !cls.Has(s[m]) ==> RunEnd(s, i, cls) == m
    decreases m - i
  {
    if i < m {
      RunEndPast(s, i + 1, m, cls);
    }
  }

  /** A stretch of `s` all in the class is, as a slice, all in the class. */
  lemma {:induction false} SliceAllIn(s: string, i: nat, j: nat, cls: CharClass)
    requires i <= j <= |s|
    requires forall k :: i <= k < j ==> cls.Has(s[k])
    ensures AllIn(s[i..j], cls)
  {
    assert forall k :: 0 <= k < j - i ==> s[i..j][k] == s[i + k];
  }

  /** Index of the last `c` in `s[lo..hi]`, or `lo - 1` when there is none. */
  function LastIndexIn(s: string, lo: nat, hi: nat, c: char): (r: int)
    requires lo <= hi <= |s|
    ensures lo - 1 <= r < hi
    ensures r >= lo ==> s[r] == c
    decreases hi
  {
    if hi == lo then lo - 1
    else if s[hi - 1] == c then hi - 1
    else LastIndexIn(s, lo, hi - 1, c)
  }

  /** Nothing after the index `LastIndexIn` returns, up to `hi`, is `c`: it is the last. */
  lemma {:induction false} LastIndexInIsLast(s: string, lo: nat, hi: nat, c: char)
    requires lo <= hi <= |s|
    ensures forall k :: LastIndexIn(s, lo, hi, c) < k < hi && lo <= k ==> s[k] != c
    decreases hi
  {
    if hi > lo && s[hi - 1] != c {
      LastIndexInIsLast(s, lo, hi - 1, c);
    }
  }

  /** An occurrence of `c` in `s[lo..hi]` is at or before the last one. */
  lemma {:induction false} LastIndexInFinds(s: string, lo: nat, hi: nat, c: char, m: nat)
    requires lo <= m < hi <= |s| && s[m] == c
    ensures LastIndexIn(s, lo, hi, c) >= m
    decreases hi
  {
    if s[hi - 1] != c {
      LastIndexInFinds(s, lo, hi - 1, c, m);
    }
  }

  /** A newline inside an occurrence is seen by `LastIndexIn` over the occurrence. */
  lemma {:induction false} NewlineSeen(s: string, i: nat, t: string)
    requires Occurs(t, s, i) && '\n' in t
    ensures LastIndexIn(s, i, i + |t|, '\n') >= i
  {
    var m :| 0 <= m < |t| && t[m] == '\n';
    OccursChar(t, s, i, m);
    LastIndexInFinds(s, i, i + |t|, '\n', i + m);
  }

  /** Greedy `\s*\n`: when a whitespace run ending in a newline occurs at `i`, the
      last newline of the whole whitespace run from `i` is at or after its end. */
  lemma {:induction false} GreedyNewline(s: string, i: nat, t: string)
    requires Occurs(t, s, i) && AllIn(t, Space) && |t| > 0 && t[|t| - 1] == '\n'
    ensures LastIndexIn(s, i, RunEnd(s, i, Space), '\n') >= i + |t| - 1
  {
    RunEndCovers(s, i, t, Space);
    OccursChar(t, s, i, |t| - 1);
    LastIndexInFinds(s, i, RunEnd(s, i, Space), '\n', i + |t| - 1);
  }
}

=== FILE: cleanup.dfy ===
/**
 Pass 2 as a whole text rewrite: `re.sub` with the block-end pattern, writing back
 either script's closing. Its main property is that it leaves no block end behind,
 so running it a second time changes nothing.

 The pattern enters as a matcher that reports the block end at the head of a text;
 what the rewrite needs of it is that it finds exactly the well-formed block ends,
 which `BlockEndRecognized` proves of `MatchBlockEnd`.
 */
module Cleanup {

  import opened Optional
  import opened Chars
  import opened TrailingComma
  import opened Substitution

  /** What the closing keeps before `)`: convert_tools.py keeps the last line of the
      gap, convert_mcprepl_tools.py writes four spaces. */
  datatype Indent = KeepIndent | FixedIndent

  /** The whitespace written between `end\n` and `)`. */
  function CloseTail(c: Indent, b: BlockEnd): string {
    match c
    case KeepIndent => LastLine(b.gap)
    case FixedIndent => "    "
  }

  /** The closing written back is `KeepIndentClose` or `FixedIndentClose`. */
  lemma {:induction false} CloseTailIs(c: Indent, b: BlockEnd)
    ensures c == KeepIndent ==> Close(b, CloseTail(c, b)) == KeepIndentClose(b)
    ensures c == FixedIndent ==> Close(b, CloseTail(c, b)) == FixedIndentClose(b)
  {
  }

  /** The last line of a whitespace gap is whitespace. */
  lemma {:induction false} CloseTailSpace(c: Indent, b: BlockEnd)
    requires b.WellFormed()
    ensures AllIn(CloseTail(c, b), Space)
  {
    if c == KeepIndent {
      var g := b.gap;
      var m := LastIndexIn(g, 0, |g|, '\n') + 1;
      assert forall k :: 0 <= k < |g| - m ==> g[m..][k] == g[m + k];
    }
  }

  /** A pass-2 pattern: the block end it matches at the head of a text. */
  type BlockMatcher = string -> Option<BlockEnd>

  /** Every match is a well-formed block end at the head of the text. */
  ghost predicate MatchesSound(mb: BlockMatcher) {
    forall t: string {:trigger mb(t)} :: mb(t).Some? ==> mb(t).value.WellFormed() && Occurs(mb(t).value.Text(), t, 0)
  }

  /** Every well-formed block end at the head of a text is matched there. */
  ghost predicate MatchesComplete(mb: BlockMatcher) {
    forall t: string, b: BlockEnd :: b.WellFormed() && Occurs(b.Text(), t, 0) ==> mb(t).Some?
  }

  /** `mb` finds exactly the well-formed block ends. */
  ghost predicate Recognizes(mb: BlockMatcher) {
    MatchesSound(mb) && MatchesComplete(mb)
  }

  /** The hand-coded pattern of both scripts finds exactly the well-formed block ends. */
  lemma {:induction false} BlockEndRecognized()
    ensures Recognizes(MatchBlockEnd)
  {
    forall t: string | MatchBlockEnd(t).Some?
      ensures MatchBlockEnd(t).value.WellFormed() && Occurs(MatchBlockEnd(t).value.Text(), t, 0)
    {
      MatchBlockEndSound(t);
    }
    forall t: string, b: BlockEnd | b.WellFormed() && Occurs(b.Text(), t, 0)
      ensures MatchBlockEnd(t).Some?
    {
      MatchBlockEndComplete(t, b);
    }
  }

  /** The pass-2 match of `mb` at the head of `s`, with the script's closing as
      replacement. */
  function FindClose(mb: BlockMatcher, c: Indent, s: string): Option<Hit> {
    match mb(s)
    case None => None
    case Some(b) => Some(Hit(|b.Text()|, Close(b, CloseTail(c, b))))
  }

  /** `find` is the pass-2 finder for matcher `mb` and closing `c`. The equation is
      used only where the finder's result is asked for by name, so the rewrite as a
      whole can be reasoned about without unfolding the matcher. */
  ghost predicate FindsBlocks(find: Finder, mb: BlockMatcher, c: Indent) {
    forall t: string {:trigger FindClose(mb, c, t)} :: find(t) == FindClose(mb, c, t)
  }

  /** The pass-2 finder never matches the empty text and stays inside its input. */
  lemma {:induction false} FinderAdvances(find: Finder, mb: BlockMatcher, c: Indent)
    requires FindsBlocks(find, mb, c) && MatchesSound(mb)
    ensures Advances(find)
  {
    forall t: string | find(t).Some?
      ensures 0 < find(t).value.len <= |t|
    {
      assert find(t) == FindClose(mb, c, t);
    }
  }

  /** The hit at `t` is the closing of a well-formed block end at its head. */
  lemma {:induction false} FinderHit(find: Finder, mb: BlockMatcher, c: Indent, t: string) returns (b: BlockEnd)
    requires FindsBlocks(find, mb, c) && MatchesSound(mb) && find(t).Some?
    ensures b.WellFormed() && Occurs(b.Text(), t, 0)
    ensures find(t) == Some(Hit(|b.Text()|, Close(b, CloseTail(c, b))))
  {
    assert find(t) == FindClose(mb, c, t);
    b := mb(t).value;
  }

  /** A block end occurring in `x` at `p` is a pass-2 hit at `p`. */
  lemma {:induction false} BlockFoundAt(find: Finder, mb: BlockMatcher, c: Indent, x: string, b: BlockEnd, p: nat)
    requires FindsBlocks(find, mb, c) && MatchesComplete(mb)
    requires b.WellFormed() && Occurs(b.Text(), x, p)
    ensures p < |x| && find(x[p..]).Some?
  {
    OccursInSuffix(b.Text(), x, p);
    assert mb(x[p..]).Some?;
    assert find(x[p..]) == FindClose(mb, c, x[p..]);
  }

  /** No block end occurs anywhere in `x`. */
  ghost predicate BlockFree(x: string) {
    forall b: BlockEnd, p: nat :: b.WellFormed() ==> !Occurs(b.Text(), x, p)
  }

  /** Text with no pass-2 hit anywhere holds no block end. */
  lemma {:induction false} HitFreeIsBlockFree(find: Finder, mb: BlockMatcher, c: Indent, x: string)
    requires FindsBlocks(find, mb, c) && MatchesComplete(mb) && HitFree(find, x)
    ensures BlockFree(x)
  {
    forall b: BlockEnd, p: nat | b.WellFormed()
      ensures !Occurs(b.Text(), x, p)
    {
      if Occurs(b.Text(), x, p) {
        BlockFoundAt(find, mb, c, x, b, p);
        assert false;
      }
    }
  }

  /** Text holding no block end has no pass-2 hit anywhere. */
  lemma {:induction false} BlockFreeIsHitFree(find: Finder, mb: BlockMatcher, c: Indent, x: string)
    requires FindsBlocks(find, mb, c) && MatchesSound(mb) && BlockFree(x)
    ensures HitFree(find, x)
  {
    forall k | 0 <= k < |x|
      ensures find(x[k..]).None?
    {
      if find(x[k..]).Some? {
        var b := FinderHit(find, mb, c, x[k..]);
        OccursInSuffix(b.Text(), x, k);
        assert false;
      }
    }
  }

  /** The output of pass 2 from the first hit at `q` on: the copied prefix, the
      closing, and the rest of the output, in which no block end occurs. A block end in
      the whole output can then be in none of the three places. */
  lemma {:induction false} BlockFreeAround(find: Finder, mb: BlockMatcher, c: Indent, s: string, q: nat, b: BlockEnd, y: string)
    requires FindsBlocks(find, mb, c) && MatchesComplete(mb) && q <= |s|
    requires forall k :: 0 <= k < q ==> find(s[k..]).None?
    requires b.WellFormed() && BlockFree(y)
    ensures BlockFree(s[..q] + Close(b, CloseTail(c, b)) + y)
  {
    var w := CloseTail(c, b);
    var r := Close(b, w);
    var out := s[..q] + r + y;
    CloseTailSpace(c, b);
    assert Occurs(r, out, q) by {
      assert out[q..q + |r|] == r;
    }
    forall e: BlockEnd, p: nat | e.WellFormed()
      ensures !Occurs(e.Text(), out, p)
    {
      if Occurs(e.Text(), out, p) {
        BlockEndAvoidsClose(e, b, w, out, p, q);
        if p + |e.Text()| <= q {
          assert out[..q] == s[..q];
          OccursInCommonPrefix(e.Text(), out, s, p, q);
          BlockFoundAt(find, mb, c, s, e, p);
          assert false;
        } else {
          OccursPast(e.Text(), s[..q] + r, y, p);
          assert false;
        }
      }
    }
  }

  /** Pass 2 leaves no block end anywhere in its output. */
  lemma {:induction false} SubBlockFree(find: Finder, mb: BlockMatcher, c: Indent, s: string)
    requires FindsBlocks(find, mb, c) && Recognizes(mb)
    ensures Advances(find) && BlockFree(Sub(find, s))
    decreases |s|
  {
    FinderAdvances(find, mb, c);
    var q := FirstMatch(find, s, 0);
    FirstMatchIsFirst(find, s, 0);
    if q == |s| {
      SubNoHit(find, s);
      HitFreeIsBlockFree(find, mb, c, s);
    } else {
      var b := FinderHit(find, mb, c, s[q..]);
      var n := q + |b.Text()|;
      SubAtHit(find, s, q, |b.Text()|, Close(b, CloseTail(c, b)));
      SubBlockFree(find, mb, c, s[n..]);
      BlockFreeAround(find, mb, c, s, q, b, Sub(find, s[n..]));
    }
  }

  /** Running pass 2 twice is running it once. */
  lemma {:induction false} SubIdempotent(find: Finder, mb: BlockMatcher, c: Indent, s: string)
    requires FindsBlocks(find, mb, c) && Recognizes(mb)
    ensures Advances(find) && Sub(find, Sub(find, s)) == Sub(find, s)
  {
    SubBlockFree(find, mb, c, s);
    BlockFreeIsHitFree(find, mb, c, Sub(find, s));
    SubNoHit(find, Sub(find, s));
  }

  /** Pass 2's finder and its matcher agree on where the leftmost match is. */
  lemma {:induction false} FirstBlockIsFirstHit(find: Finder, mb: BlockMatcher, c: Indent, s: string, i: nat)
    requires FindsBlocks(find, mb, c) && i <= |s|
    ensures FirstMatch(find, s, i) == FirstMatch(mb, s, i)
    decreases |s| - i
  {
    if i < |s| {
      assert find(s[i..]) == FindClose(mb, c, s[i..]);
      FirstBlockIsFirstHit(find, mb, c, s, i + 1);
    }
  }

  /** Where the matcher's leftmost match is `b` at `p`, pass 2's leftmost hit is at
      `p` too, and it is `b`'s closing. */
  lemma {:induction false} BlockFirstHit(find: Finder, mb: BlockMatcher, c: Indent, s: string, p: nat, b: BlockEnd)
    requires FindsBlocks(find, mb, c)
    requires p < |s| && FirstMatch(mb, s, 0) == p && mb(s[p..]) == Some(b)
    ensures FirstMatch(find, s, 0) == p
    ensures find(s[p..]) == Some(Hit(|b.Text()|, Close(b, CloseTail(c, b))))
  {
    FirstBlockIsFirstHit(find, mb, c, s, 0);
    assert find(s[p..]) == FindClose(mb, c, s[p..]);
  }

  /** Pass 2 rewrites the leftmost block end, `b` at `p`, where it stands: text before
      it is copied, the block end becomes its closing, and the rewrite goes on after
      it. */
  lemma {:induction false} BlockPassAt(find: Finder, mb: BlockMatcher, c: Indent, s: string, p: nat, b: BlockEnd)
    requires FindsBlocks(find, mb, c) && Advances(find)
    requires p < |s| && FirstMatch(mb, s, 0) == p && mb(s[p..]) == Some(b)
    ensures p + |b.Text()| <= |s|
    ensures Sub(find, s) == s[..p] + Close(b, CloseTail(c, b)) + Sub(find, s[p + |b.Text()|..])
  {
    BlockFirstHit(find, mb, c, s, p, b);
    SubAtFirst(find, s, p, |b.Text()|, Close(b, CloseTail(c, b)));
  }

  /** Text in which the matcher fails everywhere passes through pass 2 unchanged. */
  lemma {:induction false} BlockPassCopies(find: Finder, mb: BlockMatcher, c: Indent, s: string)
    requires FindsBlocks(find, mb, c) && Advances(find) && FirstMatch(mb, s, 0) == |s|
    ensures Sub(find, s) == s
  {
    FirstBlockIsFirstHit(find, mb, c, s, 0);
    SubNoMatch(find, s);
  }
}

=== FILE: closing.dfy ===
/**
 Pass 2 of both scripts: the trailing comma after a function body's `end` inside a
 tool constructor call. The pattern `(\n\s+end),\s*\n(\s*\))` is hand-coded as a
 matcher whose every step is forced: `\s+` must run to the `e` of `end`, and the
 whitespace between the comma and `)` must be the whole whitespace run, holding a
 newline. The two scripts differ only in what they write back.
 */
module TrailingComma {

  import opened Optional
  import opened Chars

  const EndComma := "end,"

  /** `\n` + indent + `end,` + gap + `)`: one sentence of the pass-2 pattern. */
  datatype BlockEnd = BlockEnd(indent: string, gap: string) {

    function Text(): string {
      "\n" + (indent + (EndComma + (gap + ")")))
    }

    predicate WellFormed() {
      && |indent| > 0 && AllIn(indent, Space)
      && AllIn(gap, Space) && '\n' in gap
    }
  }

  /** `\s*\n\s*\)` from `g`: the whitespace run from `g` holds a newline and is followed
      by `)`, whose index is returned. */
  function CloseParen(s: string, g: nat): (w: Option<nat>)
    requires g <= |s|
    ensures w.Some? ==> g <= w.value < |s|
  {
    var w := RunEnd(s, g, Space);
    if w == |s| || s[w] != ')' || LastIndexIn(s, g, w, '\n') < g then None else Some(w)
  }

  lemma {:induction false} CloseParenSound(s: string, g: nat)
    requires g <= |s| && CloseParen(s, g).Some?
    ensures s[CloseParen(s, g).value] == ')'
    ensures forall k :: g <= k < CloseParen(s, g).value ==> IsSpace(s[k])
    ensures LastIndexIn(s, g, CloseParen(s, g).value, '\n') >= g
  {
    RunEndRun(s, g, Space);
  }

  /** Matches `\n\s+end,\s*\n\s*\)` at the head of `s`. */
  function MatchBlockEnd(s: string): Option<BlockEnd> {
    if |s| == 0 || s[0] != '\n' then None
    else
      var n := RunEnd(s, 1, Space);
      if n == 1 || !Occurs(EndComma, s, n) then None
      else
        match CloseParen(s, n + 4)
        case None => None
        case Some(w) => Some(BlockEnd(s[1..n], s[n + 4..w]))
  }

  /** The stage results behind a successful `MatchBlockEnd`. */
  lemma {:induction false} MatchBlockEndStages(s: string) returns (n: nat, w: nat)
    requires MatchBlockEnd(s).Some?
    ensures 0 < |s| && s[0] == '\n'
    ensures n == RunEnd(s, 1, Space) && 1 < n && Occurs(EndComma, s, n)
    ensures CloseParen(s, n + 4) == Some(w)
    ensures MatchBlockEnd(s).value == BlockEnd(s[1..n], s[n + 4..w])
  {
    n := RunEnd(s, 1, Space);
    w := CloseParen(s, n + 4).value;
  }

  /** The pieces between the newline, `end,` at `n` and `)` at `w` form a well-formed
      block end. */
  lemma {:induction false} BlockEndWellFormed(s: string, n: nat, w: nat)
    requires 1 < n && n + 4 <= w < |s|
    requires forall k :: 1 <= k < n ==> IsSpace(s[k])
    requires forall k :: n + 4 <= k < w ==> IsSpace(s[k])
    requires LastIndexIn(s, n + 4, w, '\n') >= n + 4
    ensures BlockEnd(s[1..n], s[n + 4..w]).WellFormed()
  {
    var indent, gap := s[1..n], s[n + 4..w];
    var k := LastIndexIn(s, n + 4, w, '\n');
    assert gap[k - (n + 4)] == '\n';
    assert AllIn(indent, Space) && AllIn(gap, Space);
  }

  /** The newline at the head, `end,` at `n` and `)` at `w` put the pieces between them
      together into the text of a block end at the head of `s`. */
  lemma {:induction false} BlockEndGlue(s: string, n: nat, w: nat)
    requires 0 < |s| && s[0] == '\n' && 1 < n && n + 4 <= w < |s|
    requires Occurs(EndComma, s, n) && s[w] == ')'
    ensures Occurs(BlockEnd(s[1..n], s[n + 4..w]).Text(), s, 0)
  {
    var indent, gap := s[1..n], s[n + 4..w];
    assert Occurs("\n", s, 0);
    SliceOccurs(s, 1, n);
    SliceOccurs(s, n + 4, w);
    assert Occurs(")", s, w);
    Glue(gap, ")", s, n + 4);
    Glue(EndComma, gap + ")", s, n);
    Glue(indent, EndComma + (gap + ")"), s, 1);
    Glue("\n", indent + (EndComma + (gap + ")")), s, 0);
  }

  /** Every stage succeeding at `n` and `w` means a well-formed block end at the head. */
  lemma {:induction false} BlockEndAt(s: string, n: nat, w: nat)
    requires 0 < |s| && s[0] == '\n'
    requires n == RunEnd(s, 1, Space) && 1 < n && Occurs(EndComma, s, n)
    requires n + 4 <= |s| && CloseParen(s, n + 4) == Some(w)
    ensures BlockEnd(s[1..n], s[n + 4..w]).WellFormed()
    ensures Occurs(BlockEnd(s[1..n], s[n + 4..w]).Text(), s, 0)
  {
    RunEndRun(s, 1, Space);
    CloseParenSound(s, n + 4);
    BlockEndWellFormed(s, n, w);
    BlockEndGlue(s, n, w);
  }

  /** Soundness: what `MatchBlockEnd` finds is a sentence of the pass-2 pattern at the
      head of `s`. */
  lemma {:induction false} MatchBlockEndSound(s: string)
    ensures MatchBlockEnd(s).Some? ==>
      MatchBlockEnd(s).value.WellFormed() && Occurs(MatchBlockEnd(s).value.Text(), s, 0)
  {
    if MatchBlockEnd(s).Some? {
      var n, w := MatchBlockEndStages(s);
      BlockEndAt(s, n, w);
    }
  }

  /** The characters of a block end occurring at `p` of `x`, in the coordinates of `x`:
      the newline, the indentation up to the `e` at `p + 1 + |indent|`, `end,`, the gap
      and the `)`. */
  lemma {:induction false} BlockUnglue(b: BlockEnd, x: string, p: nat)
    requires b.WellFormed() && Occurs(b.Text(), x, p)
    ensures x[p] == '\n'
    ensures Occurs(b.indent, x, p + 1) && forall k :: p < k < p + 1 + |b.indent| ==> IsSpace(x[k])
    ensures Occurs(EndComma, x, p + 1 + |b.indent|)
    ensures x[p + 1 + |b.indent|] == 'e' && x[p + 4 + |b.indent|] == ','
    ensures Occurs(b.gap, x, p + 5 + |b.indent|)
    ensures forall k :: p + 5 + |b.indent| <= k < p + 5 + |b.indent| + |b.gap| ==> IsSpace(x[k])
    ensures p + 5 + |b.indent| + |b.gap| < |x| && x[p + 5 + |b.indent| + |b.gap|] == ')'
  {
    BlockChars(b.indent, b.gap, x, p);
  }

  /** A block end occurring at `p` of `x` is its five parts side by side. */
  lemma {:induction false} BlockParts(indent: string, gap: string, x: string, p: nat)
    requires Occurs("\n" + (indent + (EndComma + (gap + ")"))), x, p)
    ensures Occurs("\n", x, p) && Occurs(indent, x, p + 1)
    ensures Occurs(EndComma, x, p + 1 + |indent|) && Occurs(gap, x, p + 5 + |indent|)
    ensures Occurs(")", x, p + 5 + |indent| + |gap|)
  {
    var e := p + 1 + |indent|;
    Unglue("\n", indent + (EndComma + (gap + ")")), x, p);
    Unglue(indent, EndComma + (gap + ")"), x, p + 1);
    Unglue(EndComma, gap + ")", x, e);
    Unglue(gap, ")", x, e + 4);
  }

  /** `BlockUnglue` for the two parts of a block end given as plain text. */
  lemma {:induction false} BlockChars(indent: string, gap: string, x: string, p: nat)
    requires AllIn(indent, Space) && AllIn(gap, Space)
    requires Occurs("\n" + (indent + (EndComma + (gap + ")"))), x, p)
    ensures x[p] == '\n'
    ensures Occurs(indent, x, p + 1) && forall k :: p < k < p + 1 + |indent| ==> IsSpace(x[k])
    ensures Occurs(EndComma, x, p + 1 + |indent|)
    ensures x[p + 1 + |indent|] == 'e' && x[p + 4 + |indent|] == ','
    ensures Occurs(gap, x, p + 5 + |indent|)
    ensures forall k :: p + 5 + |indent| <= k < p + 5 + |indent| + |gap| ==> IsSpace(x[k])
    ensures p + 5 + |indent| + |gap| < |x| && x[p + 5 + |indent| + |gap|] == ')'
  {
    var e := p + 1 + |indent|;
    var z := e + 4 + |gap|;
    BlockParts(indent, gap, x, p);
    OccursChar("\n", x, p, 0);
    OccursChar(EndComma, x, e, 0);
    OccursChar(EndComma, x, e, 3);
    OccursChar(")", x, z, 0);
    OccursAllIn(indent, x, p + 1, Space);
    OccursAllIn(gap, x, e + 4, Space);
  }

  /** The stage equalities that make `MatchBlockEnd` return exactly `BlockEnd(s[1..n],
      s[n + 4..w])`. */
  lemma {:induction false} MatchBlockEndIs(s: string, n: nat, w: nat)
    requires 0 < |s| && s[0] == '\n'
    requires n == RunEnd(s, 1, Space) && 1 < n && Occurs(EndComma, s, n)
    requires n + 4 <= |s| && CloseParen(s, n + 4) == Some(w)
    ensures MatchBlockEnd(s) == Some(BlockEnd(s[1..n], s[n + 4..w]))
  {
  }

  /** The runs a well-formed block end at the head of `s` forces: the indentation runs
      to `end,` at `n`, and the gap runs to `)` at `w` and holds a newline. */
  lemma {:induction false} BlockEndRuns(s: string, b: BlockEnd, n: nat, w: nat)
    requires b.WellFormed() && Occurs(b.Text(), s, 0)
    requires n == 1 + |b.indent| && w == n + 4 + |b.gap|
    ensures 0 < |s| && s[0] == '\n' && w < |s|
    ensures n == RunEnd(s, 1, Space) && Occurs(EndComma, s, n)
    ensures w == RunEnd(s, n + 4, Space) && s[w] == ')'
    ensures LastIndexIn(s, n + 4, w, '\n') >= n + 4
  {
    BlockRunsAt(s, b.indent, b.gap, n, w);
  }

  /** `BlockEndRuns` for a block end given by its indentation and gap. */
  lemma {:induction false} BlockRunsAt(s: string, indent: string, gap: string, n: nat, w: nat)
    requires AllIn(indent, Space) && AllIn(gap, Space) && '\n' in gap
    requires Occurs("\n" + (indent + (EndComma + (gap + ")"))), s, 0)
    requires n == 1 + |indent| && w == n + 4 + |gap|
    ensures 0 < |s| && s[0] == '\n' && w < |s|
    ensures n == RunEnd(s, 1, Space) && Occurs(EndComma, s, n)
    ensures w == RunEnd(s, n + 4, Space) && s[w] == ')'
    ensures LastIndexIn(s, n + 4, w, '\n') >= n + 4
  {
    BlockChars(indent, gap, s, 0);
    RunEndPast(s, 1, n, Space);
    RunEndPast(s, n + 4, w, Space);
    NewlineSeen(s, n + 4, gap);
  }

  /** The stage results a well-formed block end at the head of `s` forces. */
  lemma {:induction false} BlockEndSteps(s: string, b: BlockEnd) returns (n: nat, w: nat)
    requires b.WellFormed() && Occurs(b.Text(), s, 0)
    ensures 0 < |s| && s[0] == '\n'
    ensures n == RunEnd(s, 1, Space) && 1 < n && Occurs(EndComma, s, n)
    ensures n + 4 <= |s| && CloseParen(s, n + 4) == Some(w)
    ensures s[1..n] == b.indent && s[n + 4..w] == b.gap
  {
    n := 1 + |b.indent|;
    w := n + 4 + |b.gap|;
    BlockEndRuns(s, b, n, w);
    BlockSlices(s, b);
  }

  /** The indentation and the gap of a block end at the head of `s` are its slices. */
  lemma {:induction false} BlockSlices(s: string, b: BlockEnd)
    requires Occurs(b.Text(), s, 0)
    ensures 1 + |b.indent| + 4 + |b.gap| <= |s|
    ensures s[1..1 + |b.indent|] == b.indent
    ensures s[5 + |b.indent|..5 + |b.indent| + |b.gap|] == b.gap
  {
    Unglue("\n", b.indent + (EndComma + (b.gap + ")")), s, 0);
    Unglue(b.indent, EndComma + (b.gap + ")"), s, 1);
    Unglue(EndComma, b.gap + ")", s, 1 + |b.indent|);
    Unglue(b.gap, ")", s, 5 + |b.indent|);
  }

  /** Completeness: a well-formed block end at the head of `s` is exactly what
      `MatchBlockEnd` returns; no other reading of the pattern is possible. */
  lemma {:induction false} MatchBlockEndComplete(s: string, b: BlockEnd)
    requires b.WellFormed() && Occurs(b.Text(), s, 0)
    ensures MatchBlockEnd(s) == Some(b)
  {
    var n, w := BlockEndSteps(s, b);
    MatchBlockEndIs(s, n, w);
  }

  /** What pass 2 writes back: `\n` + indent + `end\n` + the whitespace `w` + `)`. */
  function Close(b: BlockEnd, w: string): string {
    "\n" + (b.indent + ("end\n" + (w + ")")))
  }

  /** The whitespace after the last newline of the gap: what `(\s*\))` captures. */
  function LastLine(gap: string): string {
    gap[LastIndexIn(gap, 0, |gap|, '\n') + 1..]
  }

  /** convert_tools.py's `\1\n\2`: the indentation before `)` is kept. */
  function KeepIndentClose(b: BlockEnd): string {
    Close(b, LastLine(b.gap))
  }

  /** convert_mcprepl_tools.py's `\1\n    )`: `)` is put at four spaces. */
  function FixedIndentClose(b: BlockEnd): string {
    Close(b, "    ")
  }

  /** The gap's last newline is at `m`, and what follows it is the last line. */
  lemma {:induction false} LastLineAfter(gap: string) returns (m: nat)
    requires '\n' in gap
    ensures m == LastIndexIn(gap, 0, |gap|, '\n') && m < |gap| && gap[m] == '\n'
    ensures gap[m..] == "\n" + LastLine(gap)
    ensures '\n' !in LastLine(gap)
  {
    var j :| 0 <= j < |gap| && gap[j] == '\n';
    LastIndexInFinds(gap, 0, |gap|, '\n', j);
    LastIndexInIsLast(gap, 0, |gap|, '\n');
    m := LastIndexIn(gap, 0, |gap|, '\n');
    var l := LastLine(gap);
    assert forall k :: 0 <= k < |l| ==> l[k] == gap[m + 1 + k];
  }

  /** convert_tools.py's cleanup deletes exactly the comma and the gap up to its last
      newline, so it shortens the text and keeps `\n` + indent + `end` and the line
      that holds `)`. */
  lemma {:induction false} KeepIndentCloseDeletes(b: BlockEnd)
    requires b.WellFormed()
    ensures var m := LastIndexIn(b.gap, 0, |b.gap|, '\n');
      && 0 <= m
      && KeepIndentClose(b) == b.Text()[..|b.indent| + 4] + b.Text()[|b.indent| + 5 + m..]
      && b.Text()[|b.indent| + 4] == ','
      && AllIn(b.Text()[|b.indent| + 5..|b.indent| + 5 + m], Space)
      && '\n' !in LastLine(b.gap)
      && |KeepIndentClose(b)| < |b.Text()|
  {
    var m := LastLineAfter(b.gap);
    KeepCloseParts(b.indent, b.gap, LastLine(b.gap), m);
    assert AllIn(b.gap[..m], Space);
  }

  /** The kept closing, for a block end given by its indentation and gap whose last
      newline is at `m`, is the block end's text without the comma and `gap[..m]`. */
  lemma {:induction false} KeepCloseParts(indent: string, gap: string, l: string, m: nat)
    requires m < |gap| && gap[m..] == "\n" + l
    ensures var t := "\n" + (indent + (EndComma + (gap + ")")));
      && "\n" + (indent + ("end\n" + (l + ")"))) == t[..|indent| + 4] + t[|indent| + 5 + m..]
      && t[|indent| + 4] == ','
      && t[|indent| + 5..|indent| + 5 + m] == gap[..m]
  {
    var t := "\n" + (indent + (EndComma + (gap + ")")));
    var u := |indent| + 5;
    assert t == ("\n" + indent + "end") + ("," + gap + ")");
    assert t[..|indent| + 4] == "\n" + indent + "end";
    assert t[u..] == gap + ")";
    assert t[u + m..] == gap[m..] + ")";
  }

  /** convert_mcprepl_tools.py's cleanup keeps `\n` + indent + `end` and replaces the
      comma, the gap and `)` with `\n    )`. */
  lemma {:induction false} FixedIndentCloseReplaces(b: BlockEnd)
    ensures FixedIndentClose(b) == b.Text()[..|b.indent| + 4] + "\n    )"
    ensures b.Text()[|b.indent| + 4..] == "," + b.gap + ")"
  {
    assert b.Text()[..|b.indent| + 4] == "\n" + b.indent + "end";
  }

  /** A replacement occurring at `r` of `x` is its five parts side by side. */
  lemma {:induction false} CloseParts(indent: string, w: string, x: string, r: nat)
    requires Occurs("\n" + (indent + ("end\n" + (w + ")"))), x, r)
    ensures Occurs("\n", x, r) && Occurs(indent, x, r + 1)
    ensures Occurs("end\n", x, r + 1 + |indent|) && Occurs(w, x, r + 5 + |indent|)
    ensures Occurs(")", x, r + 5 + |indent| + |w|)
  {
    var e := r + 1 + |indent|;
    Unglue("\n", indent + ("end\n" + (w + ")")), x, r);
    Unglue(indent, "end\n" + (w + ")"), x, r + 1);
    Unglue("end\n", w + ")", x, e);
    Unglue(w, ")", x, e + 4);
  }

  /** The characters of a replacement occurring at `r` of `x`: newline, indentation up
      to `e` at `r + 1 + |indent|`, `end`, a newline, whitespace and `)`. */
  lemma {:induction false} CloseUnglue(b: BlockEnd, w: string, x: string, r: nat)
    requires AllIn(b.indent, Space) && AllIn(w, Space) && Occurs(Close(b, w), x, r)
    ensures x[r] == '\n'
    ensures forall k :: r < k < r + 1 + |b.indent| ==> IsSpace(x[k])
    ensures x[r + 1 + |b.indent|] == 'e' && x[r + 2 + |b.indent|] == 'n'
    ensures x[r + 3 + |b.indent|] == 'd' && x[r + 4 + |b.indent|] == '\n'
    ensures forall k :: r + 4 + |b.indent| < k < r + 5 + |b.indent| + |w| ==> IsSpace(x[k])
    ensures r + 5 + |b.indent| + |w| < |x| && x[r + 5 + |b.indent| + |w|] == ')'
  {
    CloseChars(b.indent, w, x, r);
  }

  /** `CloseUnglue` for the indentation given as plain text. */
  lemma {:induction false} CloseChars(indent: string, w: string, x: string, r: nat)
    requires AllIn(indent, Space) && AllIn(w, Space)
    requires Occurs("\n" + (indent + ("end\n" + (w + ")"))), x, r)
    ensures x[r] == '\n'
    ensures forall k :: r < k < r + 1 + |indent| ==> IsSpace(x[k])
    ensures x[r + 1 + |indent|] == 'e' && x[r + 2 + |indent|] == 'n'
    ensures x[r + 3 + |indent|] == 'd' && x[r + 4 + |indent|] == '\n'
    ensures forall k :: r + 4 + |indent| < k < r + 5 + |indent| + |w| ==> IsSpace(x[k])
    ensures r + 5 + |indent| + |w| < |x| && x[r + 5 + |indent| + |w|] == ')'
  {
    var e := r + 1 + |indent|;
    CloseParts(indent, w, x, r);
    OccursChar("\n", x, r, 0);
    EndNewlineChars(x, e);
    OccursChar(")", x, e + 4 + |w|, 0);
    OccursAllIn(indent, x, r + 1, Space);
    OccursAllIn(w, x, e + 4, Space);
  }

  lemma {:induction false} EndNewlineChars(x: string, e: nat)
    requires Occurs("end\n", x, e)
    ensures x[e] == 'e' && x[e + 1] == 'n' && x[e + 2] == 'd' && x[e + 3] == '\n'
  {
    OccursChar("end\n", x, e, 0);
    OccursChar("end\n", x, e, 1);
    OccursChar("end\n", x, e, 2);
    OccursChar("end\n", x, e, 3);
  }

  /** A block end cannot start inside a replacement. */
  lemma {:induction false} NoBlockEndInsideClose(c: BlockEnd, b: BlockEnd, w: string, x: string, p: nat, r: nat)
    requires c.WellFormed() && Occurs(c.Text(), x, p)
    requires AllIn(b.indent, Space) && AllIn(w, Space) && Occurs(Close(b, w), x, r)
    ensures !(r <= p < r + |Close(b, w)|)
  {
    BlockUnglue(c, x, p);
    CloseUnglue(b, w, x, r);
    InsideClash(x, p, |c.indent|, |c.gap|, r, |b.indent|, |w|);
  }

  /** A block end cannot start before a replacement and run into it. */
  lemma {:induction false} NoBlockEndAcrossClose(c: BlockEnd, b: BlockEnd, w: string, x: string, p: nat, r: nat)
    requires c.WellFormed() && Occurs(c.Text(), x, p)
    requires AllIn(b.indent, Space) && AllIn(w, Space) && Occurs(Close(b, w), x, r)
    ensures !(p < r < p + |c.Text()|)
  {
    BlockUnglue(c, x, p);
    CloseUnglue(b, w, x, r);
    AcrossClash(x, p, |c.indent|, |c.gap|, r, |b.indent|, |w|);
  }

  /** The characters of a block end at `p` (indentation `i`, gap `g`) and of a
      replacement at `r` (indentation `j`, last line `v`) in `x`. */
  ghost predicate BothAt(x: string, p: nat, i: nat, g: nat, r: nat, j: nat, v: nat) {
    && p + 5 + i + g < |x| && r + 5 + j + v < |x|
    && x[p] == '\n' && (forall k :: p < k < p + 1 + i ==> IsSpace(x[k]))
    && x[p + 1 + i] == 'e' && x[p + 4 + i] == ','
    && (forall k :: p + 5 + i <= k < p + 5 + i + g ==> IsSpace(x[k]))
    && x[p + 5 + i + g] == ')'
    && x[r] == '\n' && (forall k :: r < k < r + 1 + j ==> IsSpace(x[k]))
    && x[r + 1 + j] == 'e' && x[r + 2 + j] == 'n' && x[r + 3 + j] == 'd' && x[r + 4 + j] == '\n'
    && (forall k :: r + 4 + j < k < r + 5 + j + v ==> IsSpace(x[k]))
    && x[r + 5 + j + v] == ')'
  }

  /** The block end's newline cannot fall inside the replacement: from any whitespace
      there, the two texts disagree on the next non-space character or on what follows
      `end`. */
  lemma {:induction false} InsideClash(x: string, p: nat, i: nat, g: nat, r: nat, j: nat, v: nat)
    requires BothAt(x, p, i, g, r, j, v)
    ensures !(r <= p < r + 6 + j + v)
  {
  }

  /** The replacement's newline cannot fall inside the block end, by the same reading. */
  lemma {:induction false} AcrossClash(x: string, p: nat, i: nat, g: nat, r: nat, j: nat, v: nat)
    requires BothAt(x, p, i, g, r, j, v)
    ensures !(p < r < p + 6 + i + g)
  {
  }

  /** No block end overlaps a replacement written by either script's pass 2: the
      rewritten text offers the pattern nothing new. */
  lemma {:induction false} BlockEndAvoidsClose(c: BlockEnd, b: BlockEnd, w: string, x: string, p: nat, r: nat)
    requires c.WellFormed() && Occurs(c.Text(), x, p)
    requires AllIn(b.indent, Space) && AllIn(w, Space) && Occurs(Close(b, w), x, r)
    ensures p + |c.Text()| <= r || r + |Close(b, w)| <= p
  {
    NoBlockEndAcrossClose(c, b, w, x, p, r);
    NoBlockEndInsideClose(c, b, w, x, p, r);
  }
}

=== FILE: convert_mcprepl_tools.dfy ===
/**
 The text conversion inside convert_mcprepl_tools.py's `convert_file`: pass 1
 rewrites every `<name> = MCPTool(` opening, whatever the variable and the spacing
 around `=`, into an `@mcp_tool(:symbol,` header followed by a new line, and pass 2
 drops the comma after the handler's `end` and puts `)` at four spaces on the next line.
 */
module ConvertMcpreplTools {

  import opened Optional
  import opened Chars
  import opened Declaration
  import opened Headers
  import opened TrailingComma
  import opened Substitution
  import opened Cleanup
  import opened Rewrite

  /** Pass 1's `re.sub` at one position: the pattern matched at the head of `s` and
      `replacer`'s replacement for it. */
  function FindDecl(s: string): Option<Hit> {
    match MatchReplDecl(s)
    case None => None
    case Some(d) => Some(Hit(|d.Text()|, ReplHeader(d)))
  }

  /** Pass 2's `re.sub` at one position, with the replacement `\1\n    )`. */
  function FindComma(s: string): Option<Hit> {
    match MatchBlockEnd(s)
    case None => None
    case Some(b) => Some(Hit(|b.Text()|, FixedIndentClose(b)))
  }

  /** Every convert_mcprepl_tools.py match is a non-empty part of its text. */
  lemma {:induction false} ReplFits()
    ensures Fits(MatchReplDecl)
  {
    forall t: string | MatchReplDecl(t).Some?
      ensures 0 < |MatchReplDecl(t).value.Text()| <= |t|
    {
      MatchReplDeclSound(t);
    }
  }

  /** `FindDecl` is the pass-1 finder of the convert_mcprepl_tools.py pattern. */
  lemma {:induction false} DeclFinder()
    ensures FindsDecls(FindDecl, MatchReplDecl, ReplHeader) && Advances(FindDecl)
  {
    ReplFits();
    forall t: string
      ensures FindDecl(t) == FindHeader(MatchReplDecl, ReplHeader, t)
    {
    }
    HeadersAdvance(FindDecl, MatchReplDecl, ReplHeader);
  }

  /** `FindComma` is the pass-2 finder that puts `)` at four spaces. */
  lemma {:induction false} CommaFinder()
    ensures FindsBlocks(FindComma, MatchBlockEnd, FixedIndent) && Recognizes(MatchBlockEnd)
    ensures Advances(FindComma)
  {
    forall t: string
      ensures FindComma(t) == FindClose(MatchBlockEnd, FixedIndent, t)
    {
    }
    BlockEndRecognized();
    FinderAdvances(FindComma, MatchBlockEnd, FixedIndent);
  }

  /** Pass 1: `re.sub(pattern, replacer, content)`. */
  function DeclPass(content: string): string {
    DeclFinder();
    Sub(FindDecl, content)
  }

  /** Pass 2: `re.sub(r'(\n\s+end),\s*\n\s*\)', r'\1\n    )', converted)`. */
  function CommaPass(content: string): string {
    CommaFinder();
    Sub(FindComma, content)
  }

  /** What `convert_file` writes back for the content it read. */
  function Convert(content: string): string {
    CommaPass(DeclPass(content))
  }

  /** `ReplHeader` with its tail written out, in the form the pass lemmas state. */
  lemma {:induction false} ReplHeaderSpelled(d: Decl)
    ensures ReplHeader(d) == d.binding + (" = @mcp_tool(:" + (ToSymbol(d.call.name) + ",\n        "))
  {
    assert "," + ReplTail == ",\n        ";
  }

  /** Pass 1 rewrites the leftmost match in place: the text before it is copied,
      the sentence (a variable, `=` with any spacing, `MCPTool(`, the quoted name
      and the rest of its line) becomes the header, and the pass carries on after it. */
  lemma {:induction false} DeclPassRewritesFirst(s: string, p: nat, d: Decl)
    requires p < |s| && FirstMatch(MatchReplDecl, s, 0) == p && MatchReplDecl(s[p..]) == Some(d)
    ensures d.WellFormed() && Occurs(d.Text(), s, p)
    ensures DeclPass(s) == s[..p] + (d.binding + (" = @mcp_tool(:" + (ToSymbol(d.call.name) + ",\n        ")))
      + DeclPass(s[p + |d.Text()|..])
  {
    DeclFinder();
    MatchReplDeclSound(s[p..]);
    OccursInSuffix(d.Text(), s, p);
    DeclPassAt(FindDecl, MatchReplDecl, ReplHeader, s, p, d);
    ReplHeaderSpelled(d);
  }

  /** Every well-formed sentence with no match before it is rewritten: its header
      carries the sentence's own variable and symbol, with ` = ` whatever the
      spacing around `=` was. */
  lemma {:induction false} DeclPassRewritesSentence(s: string, p: nat, d: Decl) returns (f: Decl)
    requires d.WellFormed() && Occurs(d.Text(), s, p)
    requires forall k :: 0 <= k < p ==> MatchReplDecl(s[k..]).None?
    ensures f.binding == d.binding && f.lhs == d.lhs && f.rhs == d.rhs && f.call.name == d.call.name
    ensures f.WellFormed() && Occurs(f.Text(), s, p)
    ensures f.call.gap == d.call.gap && d.call.trail <= f.call.trail
    ensures DeclPass(s) == s[..p] + (d.binding + (" = @mcp_tool(:" + (ToSymbol(d.call.name) + ",\n        ")))
      + DeclPass(s[p + |f.Text()|..])
  {
    OccursInSuffix(d.Text(), s, p);
    f := ReplDeclComplete(s[p..], d);
    FirstMatchAt(MatchReplDecl, s, 0, p);
    DeclPassRewritesFirst(s, p, f);
  }

  /** The leftmost match starts its variable at the start of a word: the word
      character before it would give an earlier match, with a longer variable. So the
      variable captured is the whole word run. */
  lemma {:induction false} LeftmostMatchStartsWord(s: string, p: nat, d: Decl)
    requires 0 < p < |s| && FirstMatch(MatchReplDecl, s, 0) == p && MatchReplDecl(s[p..]) == Some(d)
    ensures !IsWordChar(s[p - 1])
  {
    FirstMatchIsFirst(MatchReplDecl, s, 0);
    if IsWordChar(s[p - 1]) {
      MatchReplDeclSound(s[p..]);
      var e := WidenBinding(d, s[p - 1]);
      WidenOccurs(d.Text(), s, p);
      var f := ReplDeclComplete(s[p - 1..], e);
      assert false;
    }
  }

  /** Text where the pattern matches nowhere passes through pass 1 unchanged. */
  lemma {:induction false} DeclPassCopies(s: string)
    requires FirstMatch(MatchReplDecl, s, 0) == |s|
    ensures DeclPass(s) == s
  {
    DeclFinder();
    Rewrite.DeclPassCopies(FindDecl, MatchReplDecl, ReplHeader, s);
  }

  /** No match of the pattern begins inside the header that replaced the first
      match; a match that begins before it can still span it (see
      `ConvertMcpreplTools.DeclPassNotIdempotent`). */
  lemma {:induction false} HeaderNotRematched(s: string, p: nat, d: Decl, k: nat)
    requires p < |s| && FirstMatch(MatchReplDecl, s, 0) == p && MatchReplDecl(s[p..]) == Some(d)
    requires p <= k < p + |ReplHeader(d)|
    ensures k < |DeclPass(s)| && MatchReplDecl(DeclPass(s)[k..]).None?
  {
    DeclFinder();
    MatchReplDeclSound(s[p..]);
    forall t: string, j: nat | j < |ReplHeader(d)|
      ensures MatchReplDecl((ReplHeader(d) + t)[j..]).None?
    {
      ReplHeaderNotRematched(d, t, j);
    }
    Rewrite.DeclPassNotRematched(FindDecl, MatchReplDecl, ReplHeader, s, p, d, k);
  }

  /** Every convert_tools.py match is also a match here, the very same sentence:
      this script's pattern is the more permissive one. */
  lemma {:induction false} ToolsMatchIsReplMatch(s: string, d: Decl) returns (f: Decl)
    requires MatchToolsDecl(s) == Some(d)
    ensures MatchReplDecl(s) == Some(f) && f == d
    ensures f.binding == d.binding && f.lhs == " " && f.rhs == " " && f.call.name == d.call.name
  {
    MatchToolsDeclSound(s);
    f := ReplDeclComplete(s, d);
    var n, o := MatchToolsDeclStages(s);
    var n', a, c, o' := MatchReplDeclStages(s);
    assert |s[n'..a]| == 1 && |s[a + 1..c]| == 1;
    assert c == n + 3;
  }

  /** Pass 2 rewrites the leftmost `\n<indent>end,<gap>)` in place: `\n<indent>end`
      is kept as it stands in the text, and the comma, the gap and `)` become
      exactly `\n    )`. */
  lemma {:induction false} CommaPassRewritesFirst(s: string, p: nat, b: BlockEnd)
    requires p < |s| && FirstMatch(MatchBlockEnd, s, 0) == p && MatchBlockEnd(s[p..]) == Some(b)
    ensures b.WellFormed() && Occurs(b.Text(), s, p)
    ensures CommaPass(s) == s[..p] + (s[p..p + |b.indent| + 4] + "\n    )") + CommaPass(s[p + |b.Text()|..])
  {
    CommaFinder();
    MatchBlockEndSound(s[p..]);
    OccursInSuffix(b.Text(), s, p);
    BlockPassAt(FindComma, MatchBlockEnd, FixedIndent, s, p, b);
    CloseTailIs(FixedIndent, b);
    FixedCloseInPlace(s, p, b);
  }

  /** The fixed closing is the block end's `\n<indent>end`, as it stands in the text,
      followed by `\n    )`. */
  lemma {:induction false} FixedCloseInPlace(s: string, p: nat, b: BlockEnd)
    requires Occurs(b.Text(), s, p)
    ensures FixedIndentClose(b) == s[p..p + |b.indent| + 4] + "\n    )"
  {
    FixedIndentCloseReplaces(b);
    OccursHead(b.Text(), s, p, |b.indent| + 4);
  }

  /** Pass 2 leaves no `\n<indent>end,<gap>)` anywhere in its output. */
  lemma {:induction false} CommaPassLeavesNoBlockEnd(s: string)
    ensures BlockFree(CommaPass(s))
    ensures forall k :: 0 <= k < |CommaPass(s)| ==> MatchBlockEnd(CommaPass(s)[k..]).None?
  {
    CommaFinder();
    var x := CommaPass(s);
    SubBlockFree(FindComma, MatchBlockEnd, FixedIndent, s);
    BlockFreeIsHitFree(FindComma, MatchBlockEnd, FixedIndent, x);
    forall k | 0 <= k < |x|
      ensures MatchBlockEnd(x[k..]).None?
    {
      assert FindComma(x[k..]).None?;
    }
  }

  /** Running pass 2 again changes nothing. */
  lemma {:induction false} CommaPassIdempotent(s: string)
    ensures CommaPass(CommaPass(s)) == CommaPass(s)
  {
    CommaFinder();
    SubIdempotent(FindComma, MatchBlockEnd, FixedIndent, s);
  }

  /** Text that neither pattern matches is written back unchanged. */
  lemma {:induction false} ConvertCopies(s: string)
    requires FirstMatch(MatchReplDecl, s, 0) == |s| && FirstMatch(MatchBlockEnd, s, 0) == |s|
    ensures Convert(s) == s
  {
    DeclPassCopies(s);
    CommaFinder();
    BlockPassCopies(FindComma, MatchBlockEnd, FixedIndent, s);
  }

  /** A pass-1 match always spans a line break. */
  lemma {:induction false} ReplMatchHasNewline(t: string)
    ensures MatchReplDecl(t).Some? ==> '\n' in t
  {
    MatchReplDeclSound(t);
    if MatchReplDecl(t).Some? {
      SentenceHasNewline(MatchReplDecl(t).value, t, 0);
    }
  }

  /** Text on a single line, such as `x = MCPTool("a", h)`, is left alone. */
  lemma {:induction false} SingleLineUnchanged(s: string)
    requires '\n' !in s
    ensures Convert(s) == s
  {
    forall k | 0 <= k < |s|
      ensures MatchReplDecl(s[k..]).None? && MatchBlockEnd(s[k..]).None?
    {
      ReplMatchHasNewline(s[k..]);
      assert s[k..][0] == s[k];
    }
    FirstMatchAt(MatchReplDecl, s, 0, |s|);
    FirstMatchAt(MatchBlockEnd, s, 0, |s|);
    ConvertCopies(s);
  }

  // Pass 1 is not idempotent. Everything from here to the end of the module serves
  // the last lemma, `DeclPassNotIdempotent`. The character-level lemmas about the two
  // literal texts say nothing beyond their spelling; they are split only so that each
  // proof obligation stays small.

  /** A text on which pass 1 is not idempotent: an opening whose quoted name is cut
      short by the quote of a second sentence, `x = MCPTool(\n"n",\n`, which is
      followed by `",` and a newline. */
  const Witness := "a = MCPTool(\n\"x = MCPTool(\n\"n\",\n\",\n"

  /** `Witness` after pass 1: the second sentence has become a header, and the outer
      opening's quoted name now runs up to the final `",`. */
  const Rewritten := "a = MCPTool(\n\"x = @mcp_tool(:n,\n        \",\n"

  /** No match starts at a character that cannot start a variable. */
  lemma {:induction false} NoMatchAtNonWord(s: string)
    requires 0 < |s| && !IsWordChar(s[0])
    ensures MatchReplDecl(s).None?
  {
  }

  /** No match starts at a word run followed by neither whitespace nor `=`. */
  lemma {:induction false} NoMatchAfterWord(s: string, n: nat)
    requires 0 < n < |s| && forall j :: 0 <= j < n ==> IsWordChar(s[j])
    requires !IsWordChar(s[n]) && !IsSpace(s[n]) && s[n] != '='
    ensures MatchReplDecl(s).None?
  {
    RunEndPast(s, 0, n, Word);
  }

  /** No match starts at `a = MCPTool(\n"` when the next quote is not followed by `,`. */
  lemma {:induction false} NoMatchCutShort(s: string)
    requires |s| > 28 && IsWordChar(s[0]) && s[1] == ' ' && s[2] == '=' && s[3] == ' ' && s[4] == 'M'
    requires s[12] == '\n' && s[13] == '"' && s[27] == '"' && s[28] != ','
    requires forall j :: 14 <= j < 27 ==> s[j] != '"'
    ensures MatchReplDecl(s).None?
  {
    RunEndPast(s, 0, 1, Word);
    RunEndPast(s, 1, 2, Space);
    RunEndPast(s, 3, 4, Space);
    RunEndPast(s, 12, 13, Space);
    RunEndPast(s, 14, 27, NotQuote);
  }

  /** Nothing matches in `Witness` before the second sentence, at 14. */
  lemma {:induction false} NoMatchInLead(w: string, k: nat)
    requires w == Witness && k < 14
    ensures MatchReplDecl(w[k..]).None?
  {
    if k == 0 {
      assert w[k..] == w;
      NoMatchAtOuter(w);
    } else if 4 <= k < 11 {
      NoMatchInKeyword(w, k);
    } else {
      NoMatchAtPunctuation(w, k);
    }
  }

  /** The outer opening of `Witness` is cut short by the second sentence's quote. */
  lemma {:induction false} NoMatchAtOuter(w: string)
    requires w == Witness
    ensures MatchReplDecl(w).None?
  {
    NoMatchCutShort(w);
  }

  /** Inside `MCPTool(` of `Witness`, the word run is followed by `(`. */
  lemma {:induction false} NoMatchInKeyword(w: string, k: nat)
    requires w == Witness && 4 <= k < 11
    ensures MatchReplDecl(w[k..]).None?
  {
    var t := w[k..];
    assert forall j :: 0 <= j < 11 - k ==> t[j] == w[k + j];
    NoMatchAfterWord(t, 11 - k);
  }

  /** The other characters before the second sentence of `Witness` cannot start a
      variable. */
  lemma {:induction false} NoMatchAtPunctuation(w: string, k: nat)
    requires w == Witness && (0 < k < 4 || 11 <= k < 14)
    ensures MatchReplDecl(w[k..]).None?
  {
    NoMatchAtNonWord(w[k..]);
  }

  /** A one-letter variable, ` = MCPTool(`, a newline, a name that runs from 14 to the
      quote at `c`, `",` and a newline not followed by more whitespace. */
  predicate ShortSentence(s: string, c: nat) {
    && 14 < c && c + 2 < |s| && IsWordChar(s[0]) && s[1] == ' ' && s[2] == '=' && s[3] == ' '
    && s[4] == 'M' && s[5] == 'C' && s[6] == 'P' && s[7] == 'T' && s[8] == 'o' && s[9] == 'o'
    && s[10] == 'l' && s[11] == '(' && s[12] == '\n' && s[13] == '"'
    && (forall j :: 14 <= j < c ==> s[j] != '"')
    && s[c] == '"' && s[c + 1] == ',' && s[c + 2] == '\n' && (c + 3 == |s| || !IsSpace(s[c + 3]))
  }

  /** Such a sentence is a match whose variable is the letter and whose name is the run
      up to `c`, covering `c + 3` characters. */
  lemma {:induction false} MatchShortSentence(s: string, c: nat)
    requires ShortSentence(s, c)
    ensures MatchReplDecl(s).Some?
    ensures var d := MatchReplDecl(s).value;
      d.binding == s[..1] && d.call.name == s[14..c] && |d.Text()| == c + 3
  {
    assert forall j :: 0 <= j < |Keyword| ==> s[4..12][j] == s[4 + j];
    RunEndPast(s, 0, 1, Word);
    RunEndPast(s, 1, 2, Space);
    RunEndPast(s, 3, 4, Space);
    RunEndPast(s, 12, 13, Space);
    RunEndPast(s, 14, c, NotQuote);
    RunEndPast(s, c + 2, c + 3, Space);
    assert LastIndexIn(s, c + 2, c + 3, '\n') == c + 2;
  }

  /** The second sentence of `Witness`, at 14, has that shape, with variable `x` and
      name `n`. */
  lemma {:induction false} InnerShape()
    ensures ShortSentence(Witness[14..], 15) && Witness[14..][..1] == "x" && Witness[14..][14..15] == "n"
  {
    InnerOpening();
    InnerKeyword();
    InnerQuotedName();
  }

  /** The variable `x` and the spaced `=` of the second sentence of `Witness`. */
  lemma {:induction false} InnerOpening()
    ensures |Witness[14..]| == 21 && Witness[14..][..1] == "x" && IsWordChar(Witness[14..][0])
    ensures Witness[14..][1] == ' ' && Witness[14..][2] == '=' && Witness[14..][3] == ' '
  {
  }

  /** `MCPTool(`, the newline and the opening quote of the second sentence of `Witness`. */
  lemma {:induction false} InnerKeyword()
    ensures Witness[18] == 'M' && Witness[19] == 'C' && Witness[20] == 'P' && Witness[21] == 'T'
    ensures Witness[22] == 'o' && Witness[23] == 'o' && Witness[24] == 'l' && Witness[25] == '('
    ensures Witness[26] == '\n' && Witness[27] == '"'
  {
  }

  /** The name `n` of the second sentence of `Witness`, then `",`, a newline and `"`. */
  lemma {:induction false} InnerQuotedName()
    ensures Witness[14..][14..15] == "n" && Witness[14..][14] != '"'
    ensures Witness[29] == '"' && Witness[30] == ',' && Witness[31] == '\n' && !IsSpace(Witness[32])
  {
  }

  /** `",` and a newline hold no match and pass through pass 1 unchanged. */
  lemma {:induction false} CloseCopied(close: string)
    requires close == "\",\n"
    ensures DeclPass(close) == close
  {
    forall k | 0 <= k < |close|
      ensures MatchReplDecl(close[k..]).None?
    {
      NoMatchAtNonWord(close[k..]);
    }
    FirstMatchAt(MatchReplDecl, close, 0, |close|);
    DeclPassCopies(close);
  }

  /** Pass 1 over a text whose leftmost match `d`, at `p`, ends at `e`, after which
      the text holds no match: the header of `d` between the copied parts. */
  lemma {:induction false} RewritesOnlyAt(w: string, p: nat, e: nat, d: Decl)
    requires p < |w| && forall k :: 0 <= k < p ==> MatchReplDecl(w[k..]).None?
    requires MatchReplDecl(w[p..]) == Some(d) && e == p + |d.Text()| && e <= |w|
    requires DeclPass(w[e..]) == w[e..]
    ensures DeclPass(w) == w[..p] + (d.binding + (" = @mcp_tool(:" + (ToSymbol(d.call.name) + ",\n        ")))
      + w[e..]
  {
    FirstMatchAt(MatchReplDecl, w, 0, p);
    DeclPassRewritesFirst(w, p, d);
    assert w[p + |d.Text()|..] == w[e..];
  }

  /** Pass 1 rewrites only the second sentence of `Witness`: the text before it and
      the `",` and newline after it are copied. */
  lemma {:induction false} WitnessFirstPass(w: string)
    requires w == Witness
    ensures DeclPass(w) == w[..14] + ("x" + (" = @mcp_tool(:" + ("n" + ",\n        "))) + w[32..]
  {
    forall k | 0 <= k < 14
      ensures MatchReplDecl(w[k..]).None?
    {
      NoMatchInLead(w, k);
    }
    InnerShape();
    MatchShortSentence(w[14..], 15);
    CloseCopied(w[32..]);
    RewritesOnlyAt(w, 14, 32, MatchReplDecl(w[14..]).value);
    assert ToSymbol("n") == "n";
  }

  /** The copied parts of `Witness` around the new header make up `Rewritten`. */
  lemma {:induction false} WitnessRewritten(w: string)
    requires w == Witness
    ensures w[..14] + ("x" + (" = @mcp_tool(:" + ("n" + ",\n        "))) + w[32..] == Rewritten
  {
  }

  /** `Rewritten` has that shape too: variable `a`, and as quoted name the header
      pass 1 wrote together with the rest of its line. */
  lemma {:induction false} OuterShape()
    ensures ShortSentence(Rewritten, 40)
  {
    RewrittenOpening();
    RewrittenKeyword();
    RewrittenKeywordEnd();
    RewrittenQuotedName();
  }

  /** The variable and the spaced `=` of `Rewritten`. */
  lemma {:induction false} RewrittenOpening()
    ensures |Rewritten| == 43 && IsWordChar(Rewritten[0])
    ensures Rewritten[1] == ' ' && Rewritten[2] == '=' && Rewritten[3] == ' '
  {
  }

  /** `MCPT` of `Rewritten`'s opening. */
  lemma {:induction false} RewrittenKeyword()
    ensures Rewritten[4] == 'M' && Rewritten[5] == 'C' && Rewritten[6] == 'P' && Rewritten[7] == 'T'
  {
  }

  /** `ool(`, the newline and the opening quote of `Rewritten`. */
  lemma {:induction false} RewrittenKeywordEnd()
    ensures Rewritten[8] == 'o' && Rewritten[9] == 'o' && Rewritten[10] == 'l' && Rewritten[11] == '('
    ensures Rewritten[12] == '\n' && Rewritten[13] == '"'
  {
  }

  /** The quoted name of `Rewritten` runs from 14 to the `",` and newline at 40. */
  lemma {:induction false} RewrittenQuotedName()
    ensures forall j :: 14 <= j < 40 ==> Rewritten[j] != '"'
    ensures Rewritten[40] == '"' && Rewritten[41] == ',' && Rewritten[42] == '\n'
  {
  }

  /** A second pass over a text that starts with a match whose variable is one letter
      puts the `@` of `@mcp_tool` at 4. */
  lemma {:induction false} OuterRewritten(x: string, d: Decl)
    requires MatchReplDecl(x) == Some(d) && |d.binding| == 1
    ensures 4 < |DeclPass(x)| && DeclPass(x)[4] == '@'
  {
    assert x[0..] == x;
    FirstMatchAt(MatchReplDecl, x, 0, 0);
    DeclPassRewritesFirst(x, 0, d);
    var rest := ToSymbol(d.call.name) + ",\n        ";
    AtSignAfterLetter(d.binding, rest, DeclPass(x[|d.Text()|..]));
    assert x[..0] + (d.binding + (" = @mcp_tool(:" + rest)) == d.binding + (" = @mcp_tool(:" + rest);
  }

  /** A one-letter variable puts the `@` of its header at 4. */
  lemma {:induction false} AtSignAfterLetter(b: string, rest: string, after: string)
    requires |b| == 1
    ensures 4 < |b + (" = @mcp_tool(:" + rest) + after|
    ensures (b + (" = @mcp_tool(:" + rest) + after)[4] == '@'
  {
  }

  /** Pass 1 is not idempotent: the header written for the second sentence of
      `Witness` becomes the quoted name of the outer opening, which a second pass then
      rewrites. */
  lemma {:induction false} DeclPassNotIdempotent(w: string)
    requires w == Witness
    ensures DeclPass(DeclPass(w)) != DeclPass(w)
  {
    WitnessFirstPass(w);
    WitnessRewritten(w);
    OuterShape();
    MatchShortSentence(DeclPass(w), 40);
    OuterRewritten(DeclPass(w), MatchReplDecl(DeclPass(w)).value);
  }
}

=== FILE: convert_tools.dfy ===
/**
 convert_tools.py's `convert_tool`: pass 1 rewrites every `<name>_tool = MCPTool(`
 opening into an `@mcp_tool(:symbol, ` header, and pass 2 drops the comma after the
 handler's `end` so that the closing parenthesis follows it on its own line.
 */
module ConvertTools {

  import opened Optional
  import opened Chars
  import opened Declaration
  import opened Headers
  import opened TrailingComma
  import opened Substitution
  import opened Cleanup
  import opened Rewrite

  /** Pass 1's `re.sub` at one position: the pattern matched at the head of `s` and
      `replace_func`'s replacement for it. */
  function FindDecl(s: string): Option<Hit> {
    match MatchToolsDecl(s)
    case None => None
    case Some(d) => Some(Hit(|d.Text()|, ToolsHeader(d)))
  }

  /** Pass 2's `re.sub` at one position, with the replacement `\1\n\2`. */
  function FindComma(s: string): Option<Hit> {
    match MatchBlockEnd(s)
    case None => None
    case Some(b) => Some(Hit(|b.Text()|, KeepIndentClose(b)))
  }

  /** Every convert_tools.py match is a non-empty part of its text. */
  lemma {:induction false} ToolsFits()
    ensures Fits(MatchToolsDecl)
  {
    forall t: string | MatchToolsDecl(t).Some?
      ensures 0 < |MatchToolsDecl(t).value.Text()| <= |t|
    {
      MatchToolsDeclSound(t);
    }
  }

  /** `FindDecl` is the pass-1 finder of the convert_tools.py pattern. */
  lemma {:induction false} DeclFinder()
    ensures FindsDecls(FindDecl, MatchToolsDecl, ToolsHeader) && Advances(FindDecl)
  {
    ToolsFits();
    forall t: string
      ensures FindDecl(t) == FindHeader(MatchToolsDecl, ToolsHeader, t)
    {
    }
    HeadersAdvance(FindDecl, MatchToolsDecl, ToolsHeader);
  }

  /** `FindComma` is the pass-2 finder that keeps the indentation before `)`. */
  lemma {:induction false} CommaFinder()
    ensures FindsBlocks(FindComma, MatchBlockEnd, KeepIndent) && Recognizes(MatchBlockEnd)
    ensures Advances(FindComma)
  {
    forall t: string
      ensures FindComma(t) == FindClose(MatchBlockEnd, KeepIndent, t)
    {
    }
    BlockEndRecognized();
    FinderAdvances(FindComma, MatchBlockEnd, KeepIndent);
  }

  /** Pass 1: `re.sub(pattern, replace_func, content)`. */
  function DeclPass(content: string): string {
    DeclFinder();
    Sub(FindDecl, content)
  }

  /** Pass 2: `re.sub(r'(\n\s+end),\s*\n(\s*\))', r'\1\n\2', new_content)`. */
  function CommaPass(content: string): string {
    CommaFinder();
    Sub(FindComma, content)
  }

  /** `convert_tool`: both passes, one after the other. */
  function ConvertTool(content: string): string {
    CommaPass(DeclPass(content))
  }

  /** Pass 1 rewrites the leftmost match in place: the text before it is copied,
      the sentence (a `_tool` variable, ` = `, `MCPTool(`, the quoted name and the
      rest of its line) becomes the header, and the pass carries on after it. */
  lemma {:induction false} DeclPassRewritesFirst(s: string, p: nat, d: Decl)
    requires p < |s| && FirstMatch(MatchToolsDecl, s, 0) == p && MatchToolsDecl(s[p..]) == Some(d)
    ensures d.ToolsForm() && Occurs(d.Text(), s, p)
    ensures DeclPass(s) == s[..p] + (d.binding + (" = @mcp_tool(:" + (ToSymbol(d.call.name) + ", ")))
      + DeclPass(s[p + |d.Text()|..])
  {
    DeclFinder();
    MatchToolsDeclSound(s[p..]);
    OccursInSuffix(d.Text(), s, p);
    DeclPassAt(FindDecl, MatchToolsDecl, ToolsHeader, s, p, d);
    assert "," + ToolsTail == ", ";
  }

  /** Every well-formed sentence with no match before it is rewritten: its header
      carries the sentence's own variable and symbol. */
  lemma {:induction false} DeclPassRewritesSentence(s: string, p: nat, d: Decl) returns (f: Decl)
    requires d.ToolsForm() && Occurs(d.Text(), s, p)
    requires forall k :: 0 <= k < p ==> MatchToolsDecl(s[k..]).None?
    ensures f.binding == d.binding && f.call.name == d.call.name
    ensures f.ToolsForm() && Occurs(f.Text(), s, p)
    ensures f.call.gap == d.call.gap && d.call.trail <= f.call.trail
    ensures DeclPass(s) == s[..p] + (d.binding + (" = @mcp_tool(:" + (ToSymbol(d.call.name) + ", ")))
      + DeclPass(s[p + |f.Text()|..])
  {
    OccursInSuffix(d.Text(), s, p);
    f := ToolsDeclComplete(s[p..], d);
    FirstMatchAt(MatchToolsDecl, s, 0, p);
    DeclPassRewritesFirst(s, p, f);
  }

  /** The leftmost match starts its `_tool` variable at the start of a word: the word
      character before it would give an earlier match, with a longer variable. So the
      variable captured is the whole word run. */
  lemma {:induction false} LeftmostMatchStartsWord(s: string, p: nat, d: Decl)
    requires 0 < p < |s| && FirstMatch(MatchToolsDecl, s, 0) == p && MatchToolsDecl(s[p..]) == Some(d)
    ensures !IsWordChar(s[p - 1])
  {
    FirstMatchIsFirst(MatchToolsDecl, s, 0);
    if IsWordChar(s[p - 1]) {
      MatchToolsDeclSound(s[p..]);
      var e := WidenBinding(d, s[p - 1]);
      WidenOccurs(d.Text(), s, p);
      var f := ToolsDeclComplete(s[p - 1..], e);
      assert false;
    }
  }

  /** Text where the pattern matches nowhere passes through pass 1 unchanged. */
  lemma {:induction false} DeclPassCopies(s: string)
    requires FirstMatch(MatchToolsDecl, s, 0) == |s|
    ensures DeclPass(s) == s
  {
    DeclFinder();
    Rewrite.DeclPassCopies(FindDecl, MatchToolsDecl, ToolsHeader, s);
  }

  /** No match of the pattern begins inside the header that replaced the first
      match; a match that begins before it can still span it (see
      `ConvertMcpreplTools.DeclPassNotIdempotent`). */
  lemma {:induction false} HeaderNotRematched(s: string, p: nat, d: Decl, k: nat)
    requires p < |s| && FirstMatch(MatchToolsDecl, s, 0) == p && MatchToolsDecl(s[p..]) == Some(d)
    requires p <= k < p + |ToolsHeader(d)|
    ensures k < |DeclPass(s)| && MatchToolsDecl(DeclPass(s)[k..]).None?
  {
    DeclFinder();
    MatchToolsDeclSound(s[p..]);
    forall t: string, j: nat | j < |ToolsHeader(d)|
      ensures MatchToolsDecl((ToolsHeader(d) + t)[j..]).None?
    {
      ToolsHeaderNotRematched(d, t, j);
    }
    Rewrite.DeclPassNotRematched(FindDecl, MatchToolsDecl, ToolsHeader, s, p, d, k);
  }

  /** Pass 2 rewrites the leftmost `\n<indent>end,<gap>)` in place, keeping the
      whitespace after the gap's last newline before `)`. */
  lemma {:induction false} CommaPassRewritesFirst(s: string, p: nat, b: BlockEnd)
    requires p < |s| && FirstMatch(MatchBlockEnd, s, 0) == p && MatchBlockEnd(s[p..]) == Some(b)
    ensures b.WellFormed() && Occurs(b.Text(), s, p)
    ensures CommaPass(s) == s[..p] + ("\n" + (b.indent + ("end\n" + (LastLine(b.gap) + ")"))))
      + CommaPass(s[p + |b.Text()|..])
  {
    CommaFinder();
    MatchBlockEndSound(s[p..]);
    OccursInSuffix(b.Text(), s, p);
    BlockPassAt(FindComma, MatchBlockEnd, KeepIndent, s, p, b);
  }

  /** Pass 2 never lengthens the text, and shortens it exactly when it matches. */
  lemma {:induction false} CommaPassShortens(s: string)
    ensures |CommaPass(s)| <= |s|
    ensures |CommaPass(s)| == |s| <==> FirstMatch(MatchBlockEnd, s, 0) == |s|
    decreases |s|
  {
    CommaFinder();
    var p := FirstMatch(MatchBlockEnd, s, 0);
    if p == |s| {
      BlockPassCopies(FindComma, MatchBlockEnd, KeepIndent, s);
    } else {
      var b := MatchBlockEnd(s[p..]).value;
      CommaPassRewritesFirst(s, p, b);
      KeepIndentCloseDeletes(b);
      CommaPassShortens(s[p + |b.Text()|..]);
    }
  }

  /** Pass 2 leaves no `\n<indent>end,<gap>)` anywhere in its output. */
  lemma {:induction false} CommaPassLeavesNoBlockEnd(s: string)
    ensures BlockFree(CommaPass(s))
    ensures forall k :: 0 <= k < |CommaPass(s)| ==> MatchBlockEnd(CommaPass(s)[k..]).None?
  {
    CommaFinder();
    var x := CommaPass(s);
    SubBlockFree(FindComma, MatchBlockEnd, KeepIndent, s);
    BlockFreeIsHitFree(FindComma, MatchBlockEnd, KeepIndent, x);
    forall k | 0 <= k < |x|
      ensures MatchBlockEnd(x[k..]).None?
    {
      assert FindComma(x[k..]).None?;
    }
  }

  /** Running pass 2 again changes nothing. */
  lemma {:induction false} CommaPassIdempotent(s: string)
    ensures CommaPass(CommaPass(s)) == CommaPass(s)
  {
    CommaFinder();
    SubIdempotent(FindComma, MatchBlockEnd, KeepIndent, s);
  }

  /** Text that neither pattern matches is returned unchanged. */
  lemma {:induction false} ConvertToolCopies(s: string)
    requires FirstMatch(MatchToolsDecl, s, 0) == |s| && FirstMatch(MatchBlockEnd, s, 0) == |s|
    ensures ConvertTool(s) == s
  {
    DeclPassCopies(s);
    CommaFinder();
    BlockPassCopies(FindComma, MatchBlockEnd, KeepIndent, s);
  }

  /** A pass-1 match always spans a line break. */
  lemma {:induction false} ToolsMatchHasNewline(t: string)
    ensures MatchToolsDecl(t).Some? ==> '\n' in t
  {
    MatchToolsDeclSound(t);
    if MatchToolsDecl(t).Some? {
      SentenceHasNewline(MatchToolsDecl(t).value, t, 0);
    }
  }

  /** Text on a single line, such as `x_tool = MCPTool("a", h)`, is left alone. */
  lemma {:induction false} SingleLineUnchanged(s: string)
    requires '\n' !in s
    ensures ConvertTool(s) == s
  {
    forall k | 0 <= k < |s|
      ensures MatchToolsDecl(s[k..]).None? && MatchBlockEnd(s[k..]).None?
    {
      ToolsMatchHasNewline(s[k..]);
      assert s[k..][0] == s[k];
    }
    FirstMatchAt(MatchToolsDecl, s, 0, |s|);
    FirstMatchAt(MatchBlockEnd, s, 0, |s|);
    ConvertToolCopies(s);
  }

  /** The sentence `tool = MCPTool(\n    "fetch-data",\n`, as the parts of a declaration. */
  const Untyped := Decl("tool", " ", " ", Opening("\n    ", "fetch-data", "\n"))

  /** A variable not ending in `_tool` is not a convert_tools.py match, whatever
      follows the sentence. */
  lemma {:induction false} UntypedNameSkipped(rest: string)
    ensures MatchToolsDecl(Untyped.Text() + rest).None?
  {
    var s := Untyped.Text() + rest;
    assert s[4] == ' ';
    RunEndPast(s, 0, 4, Word);
  }

  /** The sentence is a well-formed convert_mcprepl_tools.py sentence. */
  lemma {:induction false} UntypedWellFormed()
    ensures Untyped.WellFormed()
  {
    assert Untyped.call.gap[0] == '\n';
  }

  /** So it is a convert_mcprepl_tools.py match, whatever follows it. */
  lemma {:induction false} UntypedNameMatchedByRepl(rest: string)
    ensures MatchReplDecl(Untyped.Text() + rest).Some?
  {
    UntypedWellFormed();
    var s := Untyped.Text() + rest;
    assert s[..|Untyped.Text()|] == Untyped.Text();
    var f := ReplDeclComplete(s, Untyped);
  }
}

=== FILE: declaration.dfy ===
/**
 Pass 1 of both conversion scripts: recognising the opening of an `MCPTool(`
 constructor call and building the `@mcp_tool(` macro opening that replaces it.

 A match is described by a `Decl`, whose `Text()` is exactly the matched span.
 `Decl.WellFormed()` is the language of convert_mcprepl_tools.py's pattern
 `(\w+)\s*=\s*MCPTool\(\s*\n\s*"([^"]+)",\s*\n`, and `Decl.ToolsForm()` the
 language of convert_tools.py's `(\w+_tool) = MCPTool\(\s*\n\s*"([^"]+)",\s*\n`.
 The matchers below compute what Python's backtracking engine finds at one
 start position; they are proved sound (the span is a sentence) and complete
 (every sentence heading the text is found, with the greedy, longest trail).
 */
module Declaration {

  import opened Optional
  import opened Chars

  /** The constructor keyword the patterns look for. */
  const Keyword := "MCPTool("

  /** What both replacements put between the binding and the symbol. */
  const MacroOpen := " = @mcp_tool(:"

  /** `MCPTool(` + gap + `"` + name + `",` + trail: the part both patterns share. */
  datatype Opening = Opening(gap: string, name: string, trail: string) {

    function Text(): string {
      Keyword + (gap + ("\"" + (name + ("\"," + trail))))
    }

    /** `\s*\n\s*` before the quote, `[^"]+` inside it, `\s*\n` after the comma. */
    predicate WellFormed() {
      && AllIn(gap, Space) && '\n' in gap
      && |name| > 0 && AllIn(name, NotQuote)
      && |trail| > 0 && AllIn(trail, Space) && trail[|trail| - 1] == '\n'
    }
  }

  /** binding + lhs + `=` + rhs + opening: one matched declaration opening. */
  datatype Decl = Decl(binding: string, lhs: string, rhs: string, call: Opening) {

    function Text(): string {
      binding + (lhs + ("=" + (rhs + call.Text())))
    }

    /** A sentence of `(\w+)\s*=\s*MCPTool\(\s*\n\s*"([^"]+)",\s*\n`. */
    predicate WellFormed() {
      && |binding| > 0 && AllIn(binding, Word)
      && AllIn(lhs, Space) && AllIn(rhs, Space)
      && call.WellFormed()
    }

    /** A sentence of `(\w+_tool) = MCPTool\(\s*\n\s*"([^"]+)",\s*\n`. */
    predicate ToolsForm() {
      && WellFormed()
      && lhs == " " && rhs == " "
      && |binding| >= 6 && Occurs("_tool", binding, |binding| - 5)
    }
  }

  /** The pieces between `i`, `q` (opening quote), `c` (closing quote) and `e` (end)
      form a well-formed opening. */
  lemma {:induction false} OpeningWellFormed(s: string, i: nat, q: nat, c: nat, e: nat)
    requires i + |Keyword| <= q && q + 1 < c && c + 2 < e <= |s|
    requires forall k :: i + |Keyword| <= k < q ==> IsSpace(s[k])
    requires LastIndexIn(s, i + |Keyword|, q, '\n') >= i + |Keyword|
    requires forall k :: q < k < c ==> s[k] != '"'
    requires forall k :: c + 2 <= k < e ==> IsSpace(s[k])
    requires s[e - 1] == '\n'
    ensures Opening(s[i + |Keyword|..q], s[q + 1..c], s[c + 2..e]).WellFormed()
  {
    var gap, name, trail := s[i + |Keyword|..q], s[q + 1..c], s[c + 2..e];
    var k := LastIndexIn(s, i + |Keyword|, q, '\n');
    assert gap[k - i - |Keyword|] == '\n';
    assert trail[|trail| - 1] == '\n';
    assert AllIn(gap, Space) && AllIn(name, NotQuote) && AllIn(trail, Space);
  }

  /** The keyword at `i`, quotes at `q` and `c` and the comma after `c` put the pieces
      between them together into the text of an opening at `i`. */
  lemma {:induction false} OpeningGlue(s: string, i: nat, q: nat, c: nat, e: nat)
    requires i + |Keyword| <= q < c && c + 2 < e <= |s|
    requires Occurs(Keyword, s, i)
    requires s[q] == '"' && s[c] == '"' && s[c + 1] == ','
    ensures Occurs(Keyword + (s[i + |Keyword|..q] + ("\"" + (s[q + 1..c] + ("\"," + s[c + 2..e])))), s, i)
  {
    SliceOccurs(s, i + |Keyword|, q);
    assert Occurs("\"", s, q);
    SliceOccurs(s, q + 1, c);
    assert Occurs("\",", s, c);
    SliceOccurs(s, c + 2, e);
    Glue6(Keyword, s[i + |Keyword|..q], "\"", s[q + 1..c], "\",", s[c + 2..e], s, i);
  }

  /** `\s*\n\s*"` from `p`: whitespace holding a newline, then the opening quote, whose
      index is returned. Both `\s*` are forced: together they are the whole whitespace run. */
  function GapEnd(s: string, p: nat): (q: Option<nat>)
    requires p <= |s|
    ensures q.Some? ==> p <= q.value < |s|
  {
    var q := RunEnd(s, p, Space);
    if LastIndexIn(s, p, q, '\n') < p || q == |s| || s[q] != '"' then None else Some(q)
  }

  /** What `GapEnd` skips when it finds the quote at `q`. */
  lemma {:induction false} GapEndSound(s: string, p: nat, q: nat)
    requires p <= |s| && GapEnd(s, p) == Some(q)
    ensures q < |s| && s[q] == '"'
    ensures forall k :: p <= k < q ==> IsSpace(s[k])
    ensures LastIndexIn(s, p, q, '\n') >= p
  {
    RunEndRun(s, p, Space);
  }

  /** `([^"]+)",` after the opening quote at `q`: the index of the closing quote. */
  function NameEnd(s: string, q: nat): (c: Option<nat>)
    requires q < |s|
    ensures c.Some? ==> q + 1 < c.value && c.value + 1 < |s|
  {
    var c := RunEnd(s, q + 1, NotQuote);
    if c == q + 1 || c + 1 >= |s| || s[c + 1] != ',' then None else Some(c)
  }

  /** What `NameEnd` reads when it finds the closing quote at `c`. */
  lemma {:induction false} NameEndSound(s: string, q: nat, c: nat)
    requires q < |s| && NameEnd(s, q) == Some(c)
    ensures c + 1 < |s| && s[c] == '"' && s[c + 1] == ','
    ensures forall k :: q < k < c ==> s[k] != '"'
  {
    RunEndRun(s, q + 1, NotQuote);
  }

  /** Greedy `\s*\n` from `t`: the match ends just after the last newline of the
      whitespace run from `t`; the end is returned. */
  function TrailEnd(s: string, t: nat): (e: Option<nat>)
    requires t <= |s|
    ensures e.Some? ==> t < e.value <= |s|
  {
    var last := LastIndexIn(s, t, RunEnd(s, t, Space), '\n');
    if last < t then None else Some(last + 1)
  }

  /** What `TrailEnd` covers when the trail ends at `e`. */
  lemma {:induction false} TrailEndSound(s: string, t: nat, e: nat)
    requires t <= |s| && TrailEnd(s, t) == Some(e)
    ensures t < e <= |s| && s[e - 1] == '\n'
    ensures forall k :: t <= k < e ==> IsSpace(s[k])
  {
    RunEndRun(s, t, Space);
  }

  /** Matches `MCPTool\(\s*\n\s*"([^"]+)",\s*\n` at index `i` of `s`. Every step is
      forced except the last `\s*\n`, which backtracks from the end of the whitespace
      run to its last newline. */
  function MatchOpening(s: string, i: nat): Option<Opening>
    requires i <= |s|
  {
    if !Occurs(Keyword, s, i) then None
    else
      match GapEnd(s, i + |Keyword|)
      case None => None
      case Some(q) =>
        match NameEnd(s, q)
        case None => None
        case Some(c) =>
          match TrailEnd(s, c + 2)
          case None => None
          case Some(e) => Some(Opening(s[i + |Keyword|..q], s[q + 1..c], s[c + 2..e]))
  }

  /** The stage results behind a successful `MatchOpening`. */
  lemma {:induction false} MatchOpeningStages(s: string, i: nat) returns (q: nat, c: nat, e: nat)
    requires i <= |s| && MatchOpening(s, i).Some?
    ensures Occurs(Keyword, s, i) && i + |Keyword| <= q < |s|
    ensures GapEnd(s, i + |Keyword|) == Some(q) && NameEnd(s, q) == Some(c)
    ensures c + 2 <= |s| && TrailEnd(s, c + 2) == Some(e)
    ensures MatchOpening(s, i).value == Opening(s[i + |Keyword|..q], s[q + 1..c], s[c + 2..e])
  {
    q := GapEnd(s, i + |Keyword|).value;
    c := NameEnd(s, q).value;
    e := TrailEnd(s, c + 2).value;
  }

  /** When every stage succeeds, the pieces they delimit form a well-formed opening
      occurring at `i`. */
  lemma {:induction false} OpeningAt(s: string, i: nat, q: nat, c: nat, e: nat)
    requires Occurs(Keyword, s, i) && i + |Keyword| <= q < |s|
    requires GapEnd(s, i + |Keyword|) == Some(q) && NameEnd(s, q) == Some(c)
    requires c + 2 <= |s| && TrailEnd(s, c + 2) == Some(e)
    ensures Opening(s[i + |Keyword|..q], s[q + 1..c], s[c + 2..e]).WellFormed()
    ensures Occurs(Opening(s[i + |Keyword|..q], s[q + 1..c], s[c + 2..e]).Text(), s, i)
  {
    GapEndSound(s, i + |Keyword|, q);
    NameEndSound(s, q, c);
    TrailEndSound(s, c + 2, e);
    OpeningWellFormed(s, i, q, c, e);
    OpeningGlue(s, i, q, c, e);
  }

  /** Soundness: what `MatchOpening` finds is a sentence of the opening pattern, and it
      is the text at `i`. */
  lemma {:induction false} MatchOpeningSound(s: string, i: nat)
    requires i <= |s|
    ensures MatchOpening(s, i).Some? ==>
      MatchOpening(s, i).value.WellFormed() && Occurs(MatchOpening(s, i).value.Text(), s, i)
  {
    if MatchOpening(s, i).Some? {
      OpeningFoundAt(s, i, MatchOpening(s, i).value);
    }
  }

  /** The opening `MatchOpening` finds at `i` is well formed and is the text at `i`. */
  lemma {:induction false} OpeningFoundAt(s: string, i: nat, o: Opening)
    requires i <= |s| && MatchOpening(s, i) == Some(o)
    ensures o.WellFormed() && Occurs(o.Text(), s, i)
  {
    var q, c, e := MatchOpeningStages(s, i);
    OpeningAt(s, i, q, c, e);
  }

  /** Whitespace, `=`, whitespace and the opening, side by side from `n`. */
  lemma {:induction false} AssignGlue(lhs: string, rhs: string, call: string, s: string, n: nat)
    requires Occurs(lhs, s, n) && Occurs("=", s, n + |lhs|)
    requires Occurs(rhs, s, n + |lhs| + 1) && Occurs(call, s, n + |lhs| + 1 + |rhs|)
    ensures Occurs(lhs + ("=" + (rhs + call)), s, n)
  {
    Glue(rhs, call, s, n + |lhs| + 1);
    Glue("=", rhs + call, s, n + |lhs|);
    Glue(lhs, "=" + (rhs + call), s, n);
  }

  /** The text of a declaration at the head of `s` is its five parts side by side. */
  lemma {:induction false} DeclUnglue(d: Decl, s: string)
    requires Occurs(d.Text(), s, 0)
    ensures Occurs(d.binding, s, 0) && Occurs(d.lhs, s, |d.binding|)
    ensures |d.binding| + |d.lhs| < |s| && s[|d.binding| + |d.lhs|] == '='
    ensures Occurs(d.rhs, s, |d.binding| + |d.lhs| + 1)
    ensures Occurs(d.call.Text(), s, |d.binding| + |d.lhs| + 1 + |d.rhs|)
  {
    DeclSplit(d.binding, d.lhs, d.rhs, d.call.Text(), s);
  }

  /** `DeclUnglue` for a declaration given by its parts. */
  lemma {:induction false} DeclSplit(binding: string, lhs: string, rhs: string, call: string, s: string)
    requires Occurs(binding + (lhs + ("=" + (rhs + call))), s, 0)
    ensures Occurs(binding, s, 0) && Occurs(lhs, s, |binding|)
    ensures |binding| + |lhs| < |s| && s[|binding| + |lhs|] == '='
    ensures Occurs(rhs, s, |binding| + |lhs| + 1)
    ensures Occurs(call, s, |binding| + |lhs| + 1 + |rhs|)
  {
    Unglue(binding, lhs + ("=" + (rhs + call)), s, 0);
    AssignUnglue(lhs, rhs, call, s, |binding|);
  }

  /** The part of a declaration after its binding, from `n`, taken apart. */
  lemma {:induction false} AssignUnglue(lhs: string, rhs: string, call: string, s: string, n: nat)
    requires Occurs(lhs + ("=" + (rhs + call)), s, n)
    ensures Occurs(lhs, s, n) && n + |lhs| < |s| && s[n + |lhs|] == '='
    ensures Occurs(rhs, s, n + |lhs| + 1) && Occurs(call, s, n + |lhs| + 1 + |rhs|)
  {
    Unglue(lhs, "=" + (rhs + call), s, n);
    Unglue("=", rhs + call, s, n + |lhs|);
    Unglue(rhs, call, s, n + |lhs| + 1);
    OccursChar("=", s, n + |lhs|, 0);
  }

  /** A word run ending at `n`, whitespace up to `a`, `=` at `a`, whitespace up to `c`
      and a well-formed opening at `c` form a well-formed declaration at the head of `s`. */
  lemma {:induction false} DeclAt(s: string, n: nat, a: nat, c: nat, o: Opening)
    requires 0 < n <= a < c <= |s|
    requires forall k :: 0 <= k < n ==> IsWordChar(s[k])
    requires forall k :: n <= k < a ==> IsSpace(s[k])
    requires s[a] == '='
    requires forall k :: a < k < c ==> IsSpace(s[k])
    requires o.WellFormed() && Occurs(o.Text(), s, c)
    ensures Decl(s[..n], s[n..a], s[a + 1..c], o).WellFormed()
    ensures Occurs(Decl(s[..n], s[n..a], s[a + 1..c], o).Text(), s, 0)
  {
    assert Decl(s[..n], s[n..a], s[a + 1..c], o).WellFormed() by {
      SliceAllIn(s, 0, n, Word);
      SliceAllIn(s, n, a, Space);
      SliceAllIn(s, a + 1, c, Space);
    }
    SplitAt(s, n, a, c, o.Text());
  }

  /** The text of `s` up to `n`, to `a`, the `=` at `a`, the text up to `c` and an
      occurrence of `t` at `c`, side by side. */
  lemma {:induction false} SplitAt(s: string, n: nat, a: nat, c: nat, t: string)
    requires n <= a < c <= |s| && s[a] == '=' && Occurs(t, s, c)
    ensures Occurs(s[..n] + (s[n..a] + ("=" + (s[a + 1..c] + t))), s, 0)
  {
    SliceOccurs(s, n, a);
    assert Occurs("=", s, a);
    SliceOccurs(s, a + 1, c);
    AssignGlue(s[n..a], s[a + 1..c], t, s, n);
    Glue(s[..n], s[n..a] + ("=" + (s[a + 1..c] + t)), s, 0);
  }

  /** A word run ending in `_tool` at `n`, then ` = ` and a well-formed opening, form a
      convert_tools.py sentence at the head of `s`. */
  lemma {:induction false} ToolsDeclAt(s: string, n: nat, o: Opening)
    requires 6 <= n <= |s| && forall k :: 0 <= k < n ==> IsWordChar(s[k])
    requires Occurs("_tool", s, n - 5) && Occurs(" = ", s, n)
    requires o.WellFormed() && Occurs(o.Text(), s, n + 3)
    ensures Decl(s[..n], " ", " ", o).ToolsForm()
    ensures Occurs(Decl(s[..n], " ", " ", o).Text(), s, 0)
  {
    assert Decl(s[..n], " ", " ", o).ToolsForm() by {
      OccursInPrefix("_tool", s, n - 5, n);
      assert AllIn(s[..n], Word);
    }
    ToolsSplitAt(s, n, o.Text());
  }

  /** The text of `s` up to `n`, ` = ` at `n` and an occurrence of `t` right after it,
      side by side. */
  lemma {:induction false} ToolsSplitAt(s: string, n: nat, t: string)
    requires n <= |s| && Occurs(" = ", s, n) && Occurs(t, s, n + 3)
    ensures Occurs(s[..n] + (" " + ("=" + (" " + t))), s, 0)
  {
    Unglue(" ", "=" + " ", s, n);
    Unglue("=", " ", s, n + 1);
    AssignGlue(" ", " ", t, s, n);
    SliceOccurs(s, 0, n);
    Glue(s[..n], " " + ("=" + (" " + t)), s, 0);
  }

  /** Matches convert_tools.py's pattern at the head of `s`. The greedy `\w+` must give
      back exactly `_tool`, and `_tool` must be followed by a space, so the binding is
      the whole word run at the head of `s`. */
  function MatchToolsDecl(s: string): Option<Decl> {
    var n := RunEnd(s, 0, Word);
    if n < 6 || !Occurs("_tool", s, n - 5) || !Occurs(" = ", s, n) then None
    else
      match MatchOpening(s, n + 3)
      case None => None
      case Some(o) => Some(Decl(s[..n], " ", " ", o))
  }

  /** The steps behind a successful `MatchToolsDecl`: the binding ends at `n`. */
  lemma {:induction false} MatchToolsDeclStages(s: string) returns (n: nat, o: Opening)
    requires MatchToolsDecl(s).Some?
    ensures n == RunEnd(s, 0, Word) && n >= 6 && Occurs("_tool", s, n - 5) && Occurs(" = ", s, n)
    ensures MatchOpening(s, n + 3) == Some(o)
    ensures MatchToolsDecl(s) == Some(Decl(s[..n], " ", " ", o))
  {
    n := RunEnd(s, 0, Word);
    o := MatchOpening(s, n + 3).value;
  }

  /** The declaration `MatchToolsDecl` builds from the steps it checked is a
      convert_tools.py sentence heading `s`. */
  lemma {:induction false} ToolsDeclFound(s: string, n: nat, o: Opening)
    requires n == RunEnd(s, 0, Word) && n >= 6 && Occurs("_tool", s, n - 5) && Occurs(" = ", s, n)
    requires MatchOpening(s, n + 3) == Some(o)
    ensures Decl(s[..n], " ", " ", o).ToolsForm()
    ensures Occurs(Decl(s[..n], " ", " ", o).Text(), s, 0)
  {
    OpeningFoundAt(s, n + 3, o);
    RunEndRun(s, 0, Word);
    ToolsDeclAt(s, n, o);
  }

  /** Soundness of `MatchToolsDecl`: a convert_tools.py sentence heading `s`. */
  lemma {:induction false} MatchToolsDeclSound(s: string)
    ensures MatchToolsDecl(s).Some? ==>
      MatchToolsDecl(s).value.ToolsForm() && Occurs(MatchToolsDecl(s).value.Text(), s, 0)
  {
    if MatchToolsDecl(s).Some? {
      var n, o := MatchToolsDeclStages(s);
      ToolsDeclFound(s, n, o);
    }
  }

  /** Matches convert_mcprepl_tools.py's pattern at the head of `s`: any word run,
      optional whitespace on both sides of `=`. */
  function MatchReplDecl(s: string): Option<Decl> {
    var n := RunEnd(s, 0, Word);
    if n == 0 then None
    else
      match EqualsAt(s, n)
      case None => None
      case Some(a) =>
        var c := RunEnd(s, a + 1, Space);
        match MatchOpening(s, c)
        case None => None
        case Some(o) => Some(Decl(s[..n], s[n..a], s[a + 1..c], o))
  }

  /** `\s*=` from `n`: the index of the `=` after the whitespace run. */
  function EqualsAt(s: string, n: nat): (a: Option<nat>)
    requires n <= |s|
    ensures a.Some? ==> n <= a.value < |s|
  {
    var a := RunEnd(s, n, Space);
    if a == |s| || s[a] != '=' then None else Some(a)
  }

  /** `EqualsAt` skips the whitespace run from `n` and finds `=` right after it. */
  lemma {:induction false} EqualsAtIs(s: string, n: nat, a: nat)
    requires n <= |s|
    ensures EqualsAt(s, n) == Some(a) <==> a == RunEnd(s, n, Space) && a < |s| && s[a] == '='
  {
  }

  /** The steps behind a successful `MatchReplDecl`: the binding ends at `n`, the `=`
      is at `a` and the opening starts at `c`. */
  lemma {:induction false} MatchReplDeclStages(s: string) returns (n: nat, a: nat, c: nat, o: Opening)
    requires MatchReplDecl(s).Some?
    ensures n == RunEnd(s, 0, Word) && 0 < n && EqualsAt(s, n) == Some(a)
    ensures c == RunEnd(s, a + 1, Space) && MatchOpening(s, c) == Some(o)
    ensures MatchReplDecl(s) == Some(Decl(s[..n], s[n..a], s[a + 1..c], o))
  {
    n := RunEnd(s, 0, Word);
    a := EqualsAt(s, n).value;
    c := RunEnd(s, a + 1, Space);
    o := MatchOpening(s, c).value;
  }

  /** The declaration `MatchReplDecl` builds from the steps it checked is a
      convert_mcprepl_tools.py sentence heading `s`. */
  lemma {:induction false} ReplDeclFound(s: string, n: nat, a: nat, c: nat, o: Opening)
    requires n == RunEnd(s, 0, Word) && 0 < n && EqualsAt(s, n) == Some(a)
    requires c == RunEnd(s, a + 1, Space) && MatchOpening(s, c) == Some(o)
    ensures Decl(s[..n], s[n..a], s[a + 1..c], o).WellFormed()
    ensures Occurs(Decl(s[..n], s[n..a], s[a + 1..c], o).Text(), s, 0)
  {
    OpeningFoundAt(s, c, o);
    EqualsAtIs(s, n, a);
    RunEndRun(s, 0, Word);
    RunEndRun(s, n, Space);
    RunEndRun(s, a + 1, Space);
    DeclAt(s, n, a, c, o);
  }

  /** Soundness of `MatchReplDecl`: a convert_mcprepl_tools.py sentence heading `s`. */
  lemma {:induction false} MatchReplDeclSound(s: string)
    ensures MatchReplDecl(s).Some? ==>
      MatchReplDecl(s).value.WellFormed() && Occurs(MatchReplDecl(s).value.Text(), s, 0)
  {
    if MatchReplDecl(s).Some? {
      var n, a, c, o := MatchReplDeclStages(s);
      ReplDeclFound(s, n, a, c, o);
    }
  }

  /** A whitespace run holding a newline and followed by a quote is what `GapEnd` skips. */
  lemma {:induction false} GapEndComplete(s: string, p: nat, gap: string)
    requires Occurs(gap, s, p) && AllIn(gap, Space) && '\n' in gap
    requires p + |gap| < |s| && s[p + |gap|] == '"'
    ensures GapEnd(s, p) == Some(p + |gap|)
  {
    RunEndCovers(s, p, gap, Space);
    NewlineSeen(s, p, gap);
  }

  /** A quote-free name followed by `",` is what `NameEnd` reads. */
  lemma {:induction false} NameEndComplete(s: string, q: nat, name: string)
    requires q < |s| && Occurs(name, s, q + 1) && |name| > 0 && AllIn(name, NotQuote)
    requires q + 1 + |name| + 1 < |s| && s[q + 1 + |name|] == '"' && s[q + 1 + |name| + 1] == ','
    ensures NameEnd(s, q) == Some(q + 1 + |name|)
  {
    RunEndCovers(s, q + 1, name, NotQuote);
  }

  /** A whitespace run ending in a newline is covered by the greedy trail `TrailEnd` finds. */
  lemma {:induction false} TrailEndComplete(s: string, t: nat, trail: string)
    requires Occurs(trail, s, t) && AllIn(trail, Space) && |trail| > 0 && trail[|trail| - 1] == '\n'
    ensures TrailEnd(s, t).Some? && t + |trail| <= TrailEnd(s, t).value
  {
    GreedyNewline(s, t, trail);
  }

  /** What `MatchOpening` returns once every stage is known to succeed. */
  lemma {:induction false} MatchOpeningIs(s: string, i: nat, q: nat, c: nat, e: nat)
    requires Occurs(Keyword, s, i) && i + |Keyword| <= q < |s|
    requires GapEnd(s, i + |Keyword|) == Some(q) && NameEnd(s, q) == Some(c)
    requires c + 2 <= |s| && TrailEnd(s, c + 2) == Some(e)
    ensures MatchOpening(s, i) == Some(Opening(s[i + |Keyword|..q], s[q + 1..c], s[c + 2..e]))
  {
  }

  /** An occurrence of an opening's text, piece by piece: the opening quote is at `q`,
      the closing one at `c`. */
  lemma {:induction false} OpeningPieces(s: string, i: nat, gap: string, name: string, trail: string) returns (q: nat, c: nat)
    requires Occurs(Keyword + (gap + ("\"" + (name + ("\"," + trail)))), s, i)
    ensures q == i + |Keyword| + |gap| && c == q + 1 + |name|
    ensures Occurs(Keyword, s, i) && Occurs(gap, s, i + |Keyword|)
    ensures s[q] == '"' && Occurs(name, s, q + 1)
    ensures c + 1 < |s| && s[c] == '"' && s[c + 1] == ','
    ensures Occurs(trail, s, c + 2)
  {
    q := i + |Keyword| + |gap|;
    c := q + 1 + |name|;
    Unglue6(Keyword, gap, "\"", name, "\",", trail, s, i);
    OccursChar("\"", s, q, 0);
    OccursChar("\",", s, c, 0);
    OccursChar("\",", s, c, 1);
  }

  /** The stages of `MatchOpening` succeed on the pieces of an opening sentence whose
      gap starts at `p` and whose quotes are at `q` and `c`. */
  lemma {:induction false} OpeningSteps(s: string, p: nat, gap: string, name: string, trail: string, q: nat, c: nat) returns (e: nat)
    requires AllIn(gap, Space) && '\n' in gap && |name| > 0 && AllIn(name, NotQuote)
    requires AllIn(trail, Space) && |trail| > 0 && trail[|trail| - 1] == '\n'
    requires q == p + |gap| && c == q + 1 + |name|
    requires Occurs(gap, s, p) && c + 1 < |s|
    requires s[q] == '"' && Occurs(name, s, q + 1)
    requires s[c] == '"' && s[c + 1] == ','
    requires Occurs(trail, s, c + 2)
    ensures GapEnd(s, p) == Some(q) && NameEnd(s, q) == Some(c)
    ensures c + 2 <= |s| && TrailEnd(s, c + 2) == Some(e)
    ensures s[p..q] == gap && s[q + 1..c] == name
    ensures c + 2 + |trail| <= e
  {
    GapEndComplete(s, p, gap);
    NameEndComplete(s, q, name);
    TrailEndComplete(s, c + 2, trail);
    e := TrailEnd(s, c + 2).value;
    OccursSlice(gap, s, p);
    OccursSlice(name, s, q + 1);
  }

  /** The stage results for an opening sentence at `i` with the given pieces, and the
      greedy trail end `e`. */
  lemma {:induction false} OpeningFound(s: string, i: nat, gap: string, name: string, trail: string) returns (q: nat, c: nat, e: nat)
    requires AllIn(gap, Space) && '\n' in gap && |name| > 0 && AllIn(name, NotQuote)
    requires AllIn(trail, Space) && |trail| > 0 && trail[|trail| - 1] == '\n'
    requires Occurs(Keyword + (gap + ("\"" + (name + ("\"," + trail)))), s, i)
    ensures Occurs(Keyword, s, i) && i + |Keyword| <= q < |s|
    ensures GapEnd(s, i + |Keyword|) == Some(q) && NameEnd(s, q) == Some(c)
    ensures c + 2 <= |s| && TrailEnd(s, c + 2) == Some(e)
    ensures s[i + |Keyword|..q] == gap && s[q + 1..c] == name && trail <= s[c + 2..e]
  {
    q, c := OpeningPieces(s, i, gap, name, trail);
    e := OpeningSteps(s, i + |Keyword|, gap, name, trail, q, c);
    OccursIsPrefix(trail, s, c + 2, e);
  }

  /** Every opening sentence at `i` is found: the gap and the name are the ones given,
      and the trail found extends the given one (greedy `\s*\n`). */
  lemma {:induction false} OpeningComplete(s: string, i: nat, o: Opening) returns (f: Opening)
    requires o.WellFormed() && Occurs(o.Text(), s, i)
    ensures MatchOpening(s, i) == Some(f)
    ensures f.gap == o.gap && f.name == o.name && o.trail <= f.trail
  {
    var q, c, e := OpeningFound(s, i, o.gap, o.name, o.trail);
    MatchOpeningIs(s, i, q, c, e);
    f := Opening(s[i + |Keyword|..q], s[q + 1..c], s[c + 2..e]);
  }

  /** What `MatchToolsDecl` returns once every step is known to succeed. */
  lemma {:induction false} MatchToolsDeclIs(s: string, n: nat, o: Opening)
    requires n == RunEnd(s, 0, Word) && n >= 6 && Occurs("_tool", s, n - 5) && Occurs(" = ", s, n)
    requires MatchOpening(s, n + 3) == Some(o)
    ensures MatchToolsDecl(s) == Some(Decl(s[..n], " ", " ", o))
  {
  }

  /** The steps `MatchToolsDecl` checks all succeed on a convert_tools.py sentence
      heading `s`: the binding ends at `n` and the opening found after ` = ` is `o`. */
  lemma {:induction false} ToolsDeclSteps(s: string, d: Decl) returns (n: nat, o: Opening)
    requires d.ToolsForm() && Occurs(d.Text(), s, 0)
    ensures n <= |s| && MatchToolsDecl(s) == Some(Decl(s[..n], " ", " ", o))
    ensures s[..n] == d.binding
    ensures o.gap == d.call.gap && o.name == d.call.name && d.call.trail <= o.trail
  {
    n := |d.binding|;
    DeclUnglue(d, s);
    ToolsBindingSteps(s, d.binding);
    o := OpeningComplete(s, n + 3, d.call);
    MatchToolsDeclIs(s, n, o);
  }

  /** A binding ending in `_tool`, then ` = `, at the head of `s`: the steps on the
      binding that `MatchToolsDecl` checks. */
  lemma {:induction false} ToolsBindingSteps(s: string, binding: string)
    requires AllIn(binding, Word) && |binding| >= 6 && Occurs("_tool", binding, |binding| - 5)
    requires Occurs(binding, s, 0) && Occurs(" ", s, |binding|)
    requires |binding| + 1 < |s| && s[|binding| + 1] == '='
    requires Occurs(" ", s, |binding| + 1 + 1)
    ensures s[..|binding|] == binding && RunEnd(s, 0, Word) == |binding|
    ensures Occurs("_tool", s, |binding| - 5) && Occurs(" = ", s, |binding|)
  {
    var n := |binding|;
    OccursChar(" ", s, n, 0);
    RunEndCovers(s, 0, binding, Word);
    OccursSlice(binding, s, 0);
    OccursWithin("_tool", binding, s, n - 5, 0);
    assert Occurs("=", s, n + 1);
    Glue("=", " ", s, n + 1);
    Glue(" ", "=" + " ", s, n);
  }

  /** Every convert_tools.py sentence heading `s` is found, with the same binding,
      gap and name and a trail at least as long. */
  lemma {:induction false} ToolsDeclComplete(s: string, d: Decl) returns (f: Decl)
    requires d.ToolsForm() && Occurs(d.Text(), s, 0)
    ensures MatchToolsDecl(s) == Some(f)
    ensures f.binding == d.binding && f.lhs == d.lhs && f.rhs == d.rhs
    ensures f.call.gap == d.call.gap && f.call.name == d.call.name
    ensures d.call.trail <= f.call.trail
  {
    var n, o := ToolsDeclSteps(s, d);
    f := Decl(s[..n], " ", " ", o);
  }

  /** What `MatchReplDecl` returns once every step is known to succeed. */
  lemma {:induction false} MatchReplDeclIs(s: string, n: nat, a: nat, c: nat, o: Opening)
    requires n == RunEnd(s, 0, Word) && 0 < n && EqualsAt(s, n) == Some(a)
    requires c == RunEnd(s, a + 1, Space) && MatchOpening(s, c) == Some(o)
    ensures MatchReplDecl(s) == Some(Decl(s[..n], s[n..a], s[a + 1..c], o))
  {
  }

  /** The steps `MatchReplDecl` checks all succeed on a convert_mcprepl_tools.py
      sentence heading `s`: the binding ends at `n`, the `=` is at `a` and the opening
      starts at `c`. */
  lemma {:induction false} ReplDeclSteps(s: string, d: Decl) returns (n: nat, a: nat, c: nat)
    requires d.WellFormed() && Occurs(d.Text(), s, 0)
    ensures n == RunEnd(s, 0, Word) && 0 < n && EqualsAt(s, n) == Some(a)
    ensures c == RunEnd(s, a + 1, Space) && Occurs(d.call.Text(), s, c)
    ensures s[..n] == d.binding && s[n..a] == d.lhs && s[a + 1..c] == d.rhs
  {
    DeclUnglue(d, s);
    OpeningStart(s, |d.binding| + |d.lhs| + 1 + |d.rhs|, d.call);
    n, a, c := AssignSteps(s, d.binding, d.lhs, d.rhs);
  }

  /** A word run, whitespace, `=` and whitespace at the head of `s`, followed by `M`:
      the steps on them that `MatchReplDecl` checks, ending at `n`, `a` and `c`. */
  lemma {:induction false} AssignSteps(s: string, binding: string, lhs: string, rhs: string) returns (n: nat, a: nat, c: nat)
    requires |binding| > 0 && AllIn(binding, Word) && AllIn(lhs, Space) && AllIn(rhs, Space)
    requires Occurs(binding, s, 0) && Occurs(lhs, s, |binding|)
    requires |binding| + |lhs| < |s| && s[|binding| + |lhs|] == '='
    requires Occurs(rhs, s, |binding| + |lhs| + 1)
    requires |binding| + |lhs| + 1 + |rhs| < |s| && s[|binding| + |lhs| + 1 + |rhs|] == 'M'
    ensures n == |binding| && a == n + |lhs| && c == a + 1 + |rhs|
    ensures n == RunEnd(s, 0, Word) && 0 < n && EqualsAt(s, n) == Some(a)
    ensures c == RunEnd(s, a + 1, Space)
    ensures s[..n] == binding && s[n..a] == lhs && s[a + 1..c] == rhs
  {
    n := |binding|;
    a := n + |lhs|;
    c := a + 1 + |rhs|;
    BindingRuns(s, binding, lhs);
    RunEndCovers(s, a + 1, rhs, Space);
    EqualsAtIs(s, n, a);
    OccursSlice(binding, s, 0);
    OccursSlice(lhs, s, n);
    OccursSlice(rhs, s, a + 1);
  }

  /** The binding and the whitespace before `=` are the greedy runs `\w+` and `\s*`. */
  lemma {:induction false} BindingRuns(s: string, binding: string, lhs: string)
    requires AllIn(binding, Word) && AllIn(lhs, Space)
    requires Occurs(binding, s, 0) && Occurs(lhs, s, |binding|)
    requires |binding| + |lhs| < |s| && s[|binding| + |lhs|] == '='
    ensures RunEnd(s, 0, Word) == |binding|
    ensures RunEnd(s, |binding|, Space) == |binding| + |lhs|
  {
    var n := |binding|;
    RunEndCovers(s, n, lhs, Space);
    if |lhs| > 0 {
      OccursChar(lhs, s, n, 0);
      assert IsSpace(s[n]);
    }
    assert !IsWordChar(s[n]);
    RunEndCovers(s, 0, binding, Word);
  }

  /** An opening's text starts with `M`, which is not whitespace. */
  lemma {:induction false} OpeningStart(s: string, c: nat, o: Opening)
    requires Occurs(o.Text(), s, c)
    ensures c < |s| && s[c] == 'M'
  {
    Unglue(Keyword, o.gap + ("\"" + (o.name + ("\"," + o.trail))), s, c);
    OccursChar(Keyword, s, c, 0);
  }

  /** Every convert_mcprepl_tools.py sentence heading `s` is found, with the same
      binding, spacing around `=`, gap and name and a trail at least as long. */
  lemma {:induction false} ReplDeclComplete(s: string, d: Decl) returns (f: Decl)
    requires d.WellFormed() && Occurs(d.Text(), s, 0)
    ensures MatchReplDecl(s) == Some(f)
    ensures f.binding == d.binding && f.lhs == d.lhs && f.rhs == d.rhs
    ensures f.call.gap == d.call.gap && f.call.name == d.call.name
    ensures d.call.trail <= f.call.trail
  {
    var n, a, c := ReplDeclSteps(s, d);
    var o := OpeningComplete(s, c, d.call);
    MatchReplDeclIs(s, n, a, c, o);
    f := Decl(s[..n], s[n..a], s[a + 1..c], o);
  }

  /** A sentence whose variable is extended on the left by one more word character is
      still a sentence, of either form, one character longer. */
  lemma {:induction false} WidenBinding(d: Decl, ch: char) returns (e: Decl)
    requires d.WellFormed() && IsWordChar(ch)
    ensures e.WellFormed() && (d.ToolsForm() ==> e.ToolsForm())
    ensures e.binding == [ch] + d.binding && e.Text() == [ch] + d.Text()
  {
    e := d.(binding := [ch] + d.binding);
    WidenWord(d.binding, ch);
    if d.ToolsForm() {
      WidenSuffix(d.binding, ch);
    }
  }

  /** A word run extended by a word character is a word run. */
  lemma {:induction false} WidenWord(b: string, ch: char)
    requires AllIn(b, Word) && IsWordChar(ch)
    ensures AllIn([ch] + b, Word)
  {
    assert forall k :: 1 <= k < |b| + 1 ==> ([ch] + b)[k] == b[k - 1];
  }

  /** Extending a variable on the left keeps its `_tool` suffix. */
  lemma {:induction false} WidenSuffix(b: string, ch: char)
    requires |b| >= 6 && Occurs("_tool", b, |b| - 5)
    ensures Occurs("_tool", [ch] + b, |b| - 4)
  {
    assert ([ch] + b)[|b| - 4..|b| + 1] == b[|b| - 5..|b|];
  }

  /** Every declaration sentence spans a line break: the gap after `MCPTool(` holds a
      newline, so text without one holds no sentence. */
  lemma {:induction false} SentenceHasNewline(d: Decl, t: string, p: nat)
    requires d.WellFormed() && Occurs(d.Text(), t, p)
    ensures '\n' in t
  {
    SentenceNewline(d.binding, d.lhs, d.rhs, d.call.gap, d.call.name, d.call.trail);
    OccursHasChar(d.Text(), t, p, '\n');
  }

  /** The newline of the gap is a newline of the sentence. */
  lemma {:induction false} SentenceNewline(binding: string, lhs: string, rhs: string, gap: string, name: string, trail: string)
    requires '\n' in gap
    ensures '\n' in binding + (lhs + ("=" + (rhs + (Keyword + (gap + ("\"" + (name + ("\"," + trail))))))))
  {
    var m :| 0 <= m < |gap| && gap[m] == '\n';
    var x := binding + (lhs + ("=" + (rhs + (Keyword + (gap + ("\"" + (name + ("\"," + trail))))))));
    assert x[|binding| + |lhs| + 1 + |rhs| + |Keyword| + m] == '\n';
  }
}

=== FILE: header.dfy ===
/**
 The text pass 1 writes in place of a matched declaration opening: the binding,
 ` = @mcp_tool(:`, the tool name turned into a Julia symbol, a comma and a tail
 that differs between the two scripts.

 The main fact about it is that a rewritten header is never the start of another
 match: no sentence of either pass-1 pattern begins anywhere inside it.
 */
module Headers {

  import opened Optional
  import opened Chars
  import opened Declaration

  /** The tool name with every `-` turned into `_` (`str.replace('-', '_')`). */
  function ToSymbol(name: string): (sym: string)
    ensures |sym| == |name|
    ensures forall k :: 0 <= k < |name| ==> sym[k] == (if name[k] == '-' then '_' else name[k])
  {
    if name == [] then [] else [if name[0] == '-' then '_' else name[0]] + ToSymbol(name[1..])
  }

  /** The symbol holds no `-`, has `_` exactly where the name had `-` or `_`, and
      agrees with the name everywhere else. */
  lemma {:induction false} SymbolShape(name: string)
    ensures '-' !in ToSymbol(name)
    ensures forall k :: 0 <= k < |name| ==> (ToSymbol(name)[k] == '_' <==> name[k] == '-' || name[k] == '_')
    ensures forall k :: 0 <= k < |name| && name[k] != '-' ==> ToSymbol(name)[k] == name[k]
  {
  }

  /** Number of occurrences of `c` in `s`. */
  function Count(s: string, c: char): nat {
    if s == [] then 0 else (if s[0] == c then 1 else 0) + Count(s[1..], c)
  }

  /** The symbol's underscores are the name's hyphens and underscores together. */
  lemma {:induction false} SymbolUnderscores(name: string)
    ensures Count(ToSymbol(name), '_') == Count(name, '-') + Count(name, '_')
    ensures Count(ToSymbol(name), '-') == 0
  {
    if name != [] {
      SymbolUnderscores(name[1..]);
      assert ToSymbol(name)[1..] == ToSymbol(name[1..]);
    }
  }

  /** Turning a symbol into a symbol again changes nothing. */
  lemma {:induction false} SymbolIdempotent(name: string)
    ensures ToSymbol(ToSymbol(name)) == ToSymbol(name)
  {
  }

  /** A name without hyphens is its own symbol. */
  lemma {:induction false} SymbolWithoutHyphens(name: string)
    requires '-' !in name
    ensures ToSymbol(name) == name
  {
    assert forall k :: 0 <= k < |name| ==> ToSymbol(name)[k] == name[k];
  }

  /** A name without `"` gives a symbol without `"`. */
  lemma {:induction false} SymbolNotQuote(name: string)
    requires AllIn(name, NotQuote)
    ensures AllIn(ToSymbol(name), NotQuote)
  {
  }

  /** convert_tools.py's header ends in one space. */
  const ToolsTail := " "

  /** convert_mcprepl_tools.py's header ends in a newline and eight spaces. */
  const ReplTail := "\n        "

  /** binding + ` = @mcp_tool(:` + symbol + `,` + tail. */
  function Header(d: Decl, tail: string): string {
    d.binding + (MacroOpen + (ToSymbol(d.call.name) + ("," + tail)))
  }

  /** Where each part of a header sits. */
  lemma {:induction false} HeaderParts(d: Decl, tail: string)
    ensures var h := Header(d, tail);
      && |h| == |d.binding| + |MacroOpen| + |d.call.name| + 1 + |tail|
      && h[..|d.binding|] == d.binding
      && h[|d.binding|..|d.binding| + |MacroOpen|] == MacroOpen
      && h[|d.binding| + |MacroOpen|..|d.binding| + |MacroOpen| + |d.call.name|] == ToSymbol(d.call.name)
      && h[|h| - |tail| - 1..] == "," + tail
  {
  }

  /** The replacement `replace_func` returns in convert_tools.py. */
  function ToolsHeader(d: Decl): string {
    Header(d, ToolsTail)
  }

  /** The replacement `replacer` returns in convert_mcprepl_tools.py. */
  function ReplHeader(d: Decl): string {
    Header(d, ReplTail)
  }

  /** What a header gives back: the variable before ` = @mcp_tool(:` and the symbol
      between it and the final comma. */
  datatype HeaderReading = HeaderReading(variable: string, symbol: string)

  /** Reads a header written with `tail`: a non-empty word run, ` = @mcp_tool(:`, and
      `,` + tail at the very end; the symbol is whatever lies in between. */
  function ReadHeader(h: string, tail: string): Option<HeaderReading> {
    var n := RunEnd(h, 0, Word);
    var m := n + |MacroOpen|;
    if 0 < n && m + 1 + |tail| <= |h| && h[n..m] == MacroOpen && h[|h| - 1 - |tail|..] == "," + tail
    then Some(HeaderReading(h[..n], h[m..|h| - 1 - |tail|]))
    else None
  }

  /** The header of a well-formed sentence reads back as the sentence's own variable
      and the symbol of its name. */
  lemma {:induction false} HeaderReadBack(d: Decl, tail: string)
    requires d.WellFormed()
    ensures ReadHeader(Header(d, tail), tail) == Some(HeaderReading(d.binding, ToSymbol(d.call.name)))
  {
    ReadsBack(d.binding, ToSymbol(d.call.name), tail);
  }

  /** `HeaderReadBack` for a header given by its parts. */
  lemma {:induction false} ReadsBack(b: string, sym: string, tail: string)
    requires |b| > 0 && AllIn(b, Word)
    ensures ReadHeader(b + (MacroOpen + (sym + ("," + tail))), tail) == Some(HeaderReading(b, sym))
  {
    var h := b + (MacroOpen + (sym + ("," + tail)));
    var n := |b|;
    var m := n + |MacroOpen|;
    var l := |h| - 1 - |tail|;
    forall k | 0 <= k < n
      ensures Word.Has(h[k])
    {
      assert h[k] == b[k];
    }
    assert h[n] == MacroOpen[0];
    RunEndPast(h, 0, n, Word);
    assert h[..n] == b;
    assert h[n..m] == MacroOpen;
    assert h[m..l] == sym;
    assert h[l..] == "," + tail;
  }

  /** Whatever the reader accepts is a header: a non-empty word run, ` = @mcp_tool(:`,
      the symbol read, `,` and the tail. */
  lemma {:induction false} ReadHeaderSound(h: string, tail: string)
    requires ReadHeader(h, tail).Some?
    ensures var r := ReadHeader(h, tail).value;
      && |r.variable| > 0 && AllIn(r.variable, Word)
      && h == r.variable + (MacroOpen + (r.symbol + ("," + tail)))
  {
    var n := RunEnd(h, 0, Word);
    var m := n + |MacroOpen|;
    var l := |h| - 1 - |tail|;
    RunEndRun(h, 0, Word);
    SliceAllIn(h, 0, n, Word);
    SplitFour(h, n, m, l);
  }

  /** A text is its four slices at `n`, `m` and `l`, side by side. */
  lemma {:induction false} SplitFour(h: string, n: nat, m: nat, l: nat)
    requires n <= m <= l <= |h|
    ensures h == h[..n] + (h[n..m] + (h[m..l] + h[l..]))
  {
    assert h[m..] == h[m..l] + h[l..];
    assert h[n..] == h[n..m] + h[m..];
    assert h == h[..n] + h[n..];
  }

  /** Neither a comma nor a quote. */
  predicate Plain(c: char) {
    c != ',' && c != '"'
  }

  /** A run of word or space characters occurring at `i` puts no comma or quote there. */
  lemma {:induction false} PlainRun(seg: string, x: string, i: nat, cls: CharClass)
    requires Occurs(seg, x, i) && AllIn(seg, cls) && cls != NotQuote
    ensures forall k :: i <= k < i + |seg| ==> Plain(x[k])
  {
    forall k | i <= k < i + |seg|
      ensures Plain(x[k])
    {
      OccursChar(seg, x, i, k - i);
      assert cls.Has(seg[k - i]);
    }
  }

  /** `MCPTool(` holds no comma or quote. */
  lemma {:induction false} KeywordPlain(x: string, i: nat)
    requires Occurs(Keyword, x, i)
    ensures forall k :: i <= k < i + |Keyword| ==> Plain(x[k])
  {
    forall k | i <= k < i + |Keyword|
      ensures Plain(x[k])
    {
      OccursChar(Keyword, x, i, k - i);
    }
  }

  /** In a declaration sentence at the head of `y`, the first comma or quote is the
      opening quote of the tool name, at `q`. */
  lemma {:induction false} SentenceQuoteFirstAtHead(e: Decl, y: string) returns (q: nat)
    requires e.WellFormed() && Occurs(e.Text(), y, 0)
    ensures q < |y| && y[q] == '"'
    ensures forall k :: 0 <= k < q ==> Plain(y[k])
  {
    q := QuoteFirstAtHead(y, e.binding, e.lhs, e.rhs, e.call.gap, e.call.name, e.call.trail);
  }

  /** `SentenceQuoteFirstAtHead` for a sentence given by its parts. */
  lemma {:induction false} QuoteFirstAtHead(y: string, binding: string, lhs: string, rhs: string, gap: string, name: string, trail: string)
    returns (q: nat)
    requires AllIn(binding, Word) && AllIn(lhs, Space) && AllIn(rhs, Space) && AllIn(gap, Space)
    requires Occurs(binding + (lhs + ("=" + (rhs + (Keyword + (gap + ("\"" + (name + ("\"," + trail)))))))), y, 0)
    ensures q < |y| && y[q] == '"'
    ensures forall k :: 0 <= k < q ==> Plain(y[k])
  {
    var c := |binding| + |lhs| + 1 + |rhs|;
    DeclSplit(binding, lhs, rhs, Keyword + (gap + ("\"" + (name + ("\"," + trail)))), y);
    var c0;
    q, c0 := OpeningPieces(y, c, gap, name, trail);
    PlainBeforeQuote(y, binding, lhs, rhs, gap, c);
  }

  /** Binding, whitespace, `=`, whitespace, `MCPTool(` and the gap, side by side at the
      head of `y`, hold no comma or quote. */
  lemma {:induction false} PlainBeforeQuote(y: string, binding: string, lhs: string, rhs: string, gap: string, c: nat)
    requires AllIn(binding, Word) && AllIn(lhs, Space) && AllIn(rhs, Space) && AllIn(gap, Space)
    requires c == |binding| + |lhs| + 1 + |rhs|
    requires Occurs(binding, y, 0) && Occurs(lhs, y, |binding|)
    requires |binding| + |lhs| < |y| && y[|binding| + |lhs|] == '='
    requires Occurs(rhs, y, |binding| + |lhs| + 1)
    requires Occurs(Keyword, y, c) && Occurs(gap, y, c + |Keyword|)
    ensures forall k :: 0 <= k < c + |Keyword| + |gap| ==> Plain(y[k])
  {
    var n := |binding|;
    var a := n + |lhs|;
    PlainRun(binding, y, 0, Word);
    PlainRun(lhs, y, n, Space);
    PlainRun(rhs, y, a + 1, Space);
    KeywordPlain(y, c);
    PlainRun(gap, y, c + |Keyword|, Space);
    forall k | 0 <= k < c + |Keyword| + |gap|
      ensures Plain(y[k])
    {
      if k < n {
      } else if k < a {
      } else if k == a {
      } else if k < c {
      } else if k < c + |Keyword| {
      } else {
      }
    }
  }

  /** In a declaration sentence at `p`, the first comma or quote is the opening quote
      of the tool name, at `p + q`. */
  lemma {:induction false} SentenceQuoteFirst(e: Decl, x: string, p: nat) returns (q: nat)
    requires e.WellFormed() && Occurs(e.Text(), x, p)
    ensures p + q < |x| && x[p + q] == '"'
    ensures forall k :: p <= k < p + q ==> Plain(x[k])
  {
    OccursInSuffix(e.Text(), x, p);
    q := SentenceQuoteFirstAtHead(e, x[p..]);
    forall k | p <= k < p + q
      ensures Plain(x[k])
    {
      assert x[k] == x[p..][k - p];
    }
  }

  /** A declaration sentence starts with a word character. */
  lemma {:induction false} SentenceWordFirst(e: Decl, x: string, p: nat)
    requires e.WellFormed() && Occurs(e.Text(), x, p)
    ensures p < |x| && IsWordChar(x[p])
  {
    DeclUnglue(e, x[p..]);
    OccursInSuffix(e.Text(), x, p);
    OccursChar(e.binding, x[p..], 0, 0);
    assert x[p] == x[p..][0];
  }

  /** Inside a header followed by any text, the comma after the symbol comes before
      any quote. */
  lemma {:induction false} HeaderCommaFirst(d: Decl, tail: string, t: string)
    requires d.WellFormed()
    ensures var x := Header(d, tail) + t;
      var m := |d.binding| + |MacroOpen| + |d.call.name|;
      m < |x| && x[m] == ',' && forall k :: 0 <= k < m ==> x[k] != '"'
  {
    HeaderParts(d, tail);
    var h := Header(d, tail);
    var x := h + t;
    var n := |d.binding|;
    var m := n + |MacroOpen| + |d.call.name|;
    SymbolNotQuote(d.call.name);
    assert x[m] == h[m] == (h[|h| - |tail| - 1..])[0];
    forall k | 0 <= k < m
      ensures x[k] != '"'
    {
      assert x[k] == h[k];
      if k < n {
        assert h[k] == h[..n][k];
      } else if k < n + |MacroOpen| {
        assert h[k] == h[n..n + |MacroOpen|][k - n];
      } else {
        assert h[k] == h[n + |MacroOpen|..m][k - n - |MacroOpen|];
      }
    }
  }

  /** After the comma, a header holds only the whitespace of its tail. */
  lemma {:induction false} HeaderTailSpace(d: Decl, tail: string, t: string, p: nat)
    requires AllIn(tail, Space)
    requires |d.binding| + |MacroOpen| + |d.call.name| < p < |Header(d, tail)|
    ensures IsSpace((Header(d, tail) + t)[p])
  {
    HeaderParts(d, tail);
    var h := Header(d, tail);
    assert (Header(d, tail) + t)[p] == h[p] == h[|h| - |tail| - 1..][p - (|h| - |tail| - 1)];
    assert h[p] == tail[p - (|h| - |tail|)];
  }

  /** No declaration sentence begins anywhere inside a header whose tail is whitespace,
      whatever text follows it. */
  lemma {:induction false} NoSentenceInHeader(d: Decl, tail: string, t: string, p: nat, e: Decl)
    requires d.WellFormed() && AllIn(tail, Space) && p < |Header(d, tail)|
    requires e.WellFormed()
    ensures !Occurs(e.Text(), Header(d, tail) + t, p)
  {
    var x := Header(d, tail) + t;
    var m := |d.binding| + |MacroOpen| + |d.call.name|;
    if Occurs(e.Text(), x, p) {
      if p <= m {
        HeaderCommaFirst(d, tail, t);
        var q := SentenceQuoteFirst(e, x, p);
        assert false;
      } else {
        HeaderTailSpace(d, tail, t, p);
        SentenceWordFirst(e, x, p);
        assert false;
      }
    }
  }

  /** A header produced by convert_tools.py starts no further convert_tools.py match. */
  lemma {:induction false} ToolsHeaderNotRematched(d: Decl, t: string, p: nat)
    requires d.WellFormed() && p < |ToolsHeader(d)|
    ensures MatchToolsDecl((ToolsHeader(d) + t)[p..]).None?
  {
    var x := ToolsHeader(d) + t;
    forall e: Decl | e.WellFormed()
      ensures !Occurs(e.Text(), x, p)
    {
      NoSentenceInHeader(d, ToolsTail, t, p, e);
    }
    NoToolsMatchAt(x, p);
  }

  /** A header produced by convert_mcprepl_tools.py starts no further
      convert_mcprepl_tools.py match. */
  lemma {:induction false} ReplHeaderNotRematched(d: Decl, t: string, p: nat)
    requires d.WellFormed() && p < |ReplHeader(d)|
    ensures MatchReplDecl((ReplHeader(d) + t)[p..]).None?
  {
    var x := ReplHeader(d) + t;
    forall e: Decl | e.WellFormed()
      ensures !Occurs(e.Text(), x, p)
    {
      NoSentenceInHeader(d, ReplTail, t, p, e);
    }
    NoReplMatchAt(x, p);
  }

  /** Where no declaration sentence occurs, convert_tools.py's pattern does not match. */
  lemma {:induction false} NoToolsMatchAt(x: string, p: nat)
    requires p <= |x|
    requires forall e: Decl :: e.WellFormed() ==> !Occurs(e.Text(), x, p)
    ensures MatchToolsDecl(x[p..]).None?
  {
    if MatchToolsDecl(x[p..]).Some? {
      MatchToolsDeclSound(x[p..]);
      var e := MatchToolsDecl(x[p..]).value;
      OccursInSuffix(e.Text(), x, p);
      assert false;
    }
  }

  /** Where no declaration sentence occurs, convert_mcprepl_tools.py's pattern does
      not match. */
  lemma {:induction false} NoReplMatchAt(x: string, p: nat)
    requires p <= |x|
    requires forall e: Decl :: e.WellFormed() ==> !Occurs(e.Text(), x, p)
    ensures MatchReplDecl(x[p..]).None?
  {
    if MatchReplDecl(x[p..]).Some? {
      MatchReplDeclSound(x[p..]);
      var e := MatchReplDecl(x[p..]).value;
      OccursInSuffix(e.Text(), x, p);
      assert false;
    }
  }
}

=== FILE: rewrite.dfy ===
/**
 Pass 1 as a whole text rewrite: `re.sub` with a declaration pattern, writing a header
 in place of each match. The pattern enters as a matcher that reports the sentence
 at the head of a text and the header as a function of that sentence; the two
 scripts differ in both.
 */
module Rewrite {

  import opened Optional
  import opened Chars
  import opened Declaration
  import opened Headers
  import opened Substitution

  /** A pass-1 pattern: the declaration sentence it matches at the head of a text. */
  type Matcher = string -> Option<Decl>

  /** Every match covers a non-empty part of the text it is found in. */
  ghost predicate Fits(m: Matcher) {
    forall t: string {:trigger m(t)} :: m(t).Some? ==> 0 < |m(t).value.Text()| <= |t|
  }

  /** The pass-1 match at the head of `s`, replaced by the header `hdr` writes for it. */
  function FindHeader(m: Matcher, hdr: Decl -> string, s: string): (h: Option<Hit>)
    requires Fits(m)
    ensures h.Some? ==> 0 < h.value.len <= |s|
  {
    match m(s)
    case None => None
    case Some(d) => Some(Hit(|d.Text()|, hdr(d)))
  }

  /** `find` is the pass-1 finder for matcher `m` and header `hdr`. The equation is used
      only where the finder's result is asked for by name, so the rewrite as a whole
      can be reasoned about without unfolding the matcher. */
  ghost predicate FindsDecls(find: Finder, m: Matcher, hdr: Decl -> string) {
    && Fits(m)
    && forall t: string {:trigger FindHeader(m, hdr, t)} :: find(t) == FindHeader(m, hdr, t)
  }

  /** The pass-1 finder never matches the empty text and stays inside its input. */
  lemma {:induction false} HeadersAdvance(find: Finder, m: Matcher, hdr: Decl -> string)
    requires FindsDecls(find, m, hdr)
    ensures Advances(find)
  {
    forall t: string | find(t).Some?
      ensures 0 < find(t).value.len <= |t|
    {
      assert find(t) == FindHeader(m, hdr, t);
    }
  }

  /** Pass 1's finder and its matcher agree on where the leftmost match is. */
  lemma {:induction false} FirstHeaderIsFirstDecl(find: Finder, m: Matcher, hdr: Decl -> string, s: string, i: nat)
    requires FindsDecls(find, m, hdr) && i <= |s|
    ensures FirstMatch(find, s, i) == FirstMatch(m, s, i)
    decreases |s| - i
  {
    if i < |s| {
      assert find(s[i..]) == FindHeader(m, hdr, s[i..]);
      FirstHeaderIsFirstDecl(find, m, hdr, s, i + 1);
    }
  }

  /** The hit pass 1 makes at `p` where the matcher finds `d`. */
  lemma {:induction false} DeclHitAt(find: Finder, m: Matcher, hdr: Decl -> string, s: string, p: nat, d: Decl)
    requires FindsDecls(find, m, hdr) && p < |s| && m(s[p..]) == Some(d)
    ensures find(s[p..]) == Some(Hit(|d.Text()|, hdr(d)))
  {
    assert find(s[p..]) == FindHeader(m, hdr, s[p..]);
  }

  /** Pass 1 rewrites the leftmost match, `d` at `p`, where it stands: text before it
      is copied, the matched sentence becomes the header, and the rewrite goes on
      right after the sentence. */
  lemma {:induction false} DeclPassAt(find: Finder, m: Matcher, hdr: Decl -> string, s: string, p: nat, d: Decl)
    requires FindsDecls(find, m, hdr) && p < |s| && FirstMatch(m, s, 0) == p && m(s[p..]) == Some(d)
    ensures Advances(find) && p + |d.Text()| <= |s|
    ensures Sub(find, s) == s[..p] + hdr(d) + Sub(find, s[p + |d.Text()|..])
  {
    HeadersAdvance(find, m, hdr);
    FirstHeaderIsFirstDecl(find, m, hdr, s, 0);
    DeclHitAt(find, m, hdr, s, p, d);
    SubAtFirst(find, s, p, |d.Text()|, hdr(d));
  }

  /** Text in which the matcher fails everywhere passes through pass 1 unchanged. */
  lemma {:induction false} DeclPassCopies(find: Finder, m: Matcher, hdr: Decl -> string, s: string)
    requires FindsDecls(find, m, hdr) && FirstMatch(m, s, 0) == |s|
    ensures Advances(find) && Sub(find, s) == s
  {
    HeadersAdvance(find, m, hdr);
    FirstHeaderIsFirstDecl(find, m, hdr, s, 0);
    SubNoMatch(find, s);
  }

  /** The matcher fails everywhere inside the header for `d`, whatever follows it. */
  ghost predicate HeaderUnmatched(m: Matcher, d: Decl, hdr: Decl -> string) {
    forall t: string, j: nat :: j < |hdr(d)| ==> m((hdr(d) + t)[j..]).None?
  }

  /** In pass 1's output no match begins inside the header that replaced the first
      match, when the matcher fails inside that header. A match that begins before the
      header can still span it. */
  lemma {:induction false} DeclPassNotRematched(find: Finder, m: Matcher, hdr: Decl -> string, s: string, p: nat, d: Decl, k: nat)
    requires FindsDecls(find, m, hdr) && p < |s| && FirstMatch(m, s, 0) == p && m(s[p..]) == Some(d)
    requires HeaderUnmatched(m, d, hdr)
    requires p <= k < p + |hdr(d)|
    ensures Advances(find) && k < |Sub(find, s)| && m(Sub(find, s)[k..]).None?
  {
    DeclPassAt(find, m, hdr, s, p, d);
    var t := Sub(find, s[p + |d.Text()|..]);
    SuffixOfGlued(s[..p], hdr(d), t, k);
    assert m((hdr(d) + t)[k - p..]).None?;
  }

  /** A suffix starting inside the middle part of `a + b + c`. */
  lemma {:induction false} SuffixOfGlued(a: string, b: string, c: string, k: nat)
    requires |a| <= k < |a| + |b|
    ensures (a + b + c)[k..] == (b + c)[k - |a|..]
  {
  }
}

=== FILE: substitution.dfy ===
/**
 Python's `re.sub` for a pattern with a replacement function: scan from the left,
 replace the leftmost match, resume right after it, and copy every character no match
 covers. The pattern enters only through a finder that reports the match at the head
 of a text; none of the scripts' patterns matches the empty text, so the scan always
 moves forward.
 */
module Substitution {

  import opened Optional

  /** A match at the head of a text: how much of it the match covers, and what is
      written in its place. */
  datatype Hit = Hit(len: nat, out: string)

  /** The match of a fixed pattern at the head of a text, with its replacement. */
  type Finder = string -> Option<Hit>

  /** Every match covers at least one character of the text it is found in. */
  ghost predicate Advances(find: Finder) {
    forall t: string {:trigger find(t)} :: find(t).Some? ==> 0 < find(t).value.len <= |t|
  }

  /** `re.sub(pattern, repl, s)`: replace every match found scanning left to right. */
  function Sub(find: Finder, s: string): string
    requires Advances(find)
    decreases |s|
  {
    if s == [] then []
    else
      match find(s)
      case Some(h) => h.out + Sub(find, s[h.len..])
      case None => [s[0]] + Sub(find, s[1..])
  }

  /** No match starts before `p`. */
  predicate NoHitBefore(find: Finder, s: string, p: nat)
    requires p <= |s|
  {
    forall k :: 0 <= k < p ==> find(s[k..]).None?
  }

  /** No match starts anywhere in `s`. */
  predicate HitFree(find: Finder, s: string) {
    NoHitBefore(find, s, |s|)
  }

  /** The leftmost index at or after `i` where `f` reports a match, or `|s|` when there
      is none (`re.search` from `i`). */
  function FirstMatch<T>(f: string -> Option<T>, s: string, i: nat): (p: nat)
    requires i <= |s|
    ensures i <= p <= |s|
    ensures p < |s| ==> f(s[p..]).Some?
    decreases |s| - i
  {
    if i == |s| || f(s[i..]).Some? then i else FirstMatch(f, s, i + 1)
  }

  /** Nothing between `i` and `FirstMatch` is a match. */
  lemma {:induction false} FirstMatchIsFirst<T>(f: string -> Option<T>, s: string, i: nat)
    requires i <= |s|
    ensures forall k :: i <= k < FirstMatch(f, s, i) ==> f(s[k..]).None?
    decreases |s| - i
  {
    if i < |s| && f(s[i..]).None? {
      FirstMatchIsFirst(f, s, i + 1);
    }
  }

  /** A match at `p` with none before it makes `p` the leftmost match. */
  lemma {:induction false} FirstMatchAt<T>(f: string -> Option<T>, s: string, i: nat, p: nat)
    requires i <= p <= |s|
    requires forall k :: i <= k < p ==> f(s[k..]).None?
    requires p < |s| ==> f(s[p..]).Some?
    ensures FirstMatch(f, s, i) == p
    decreases p - i
  {
    if i < p {
      FirstMatchAt(f, s, i + 1, p);
    }
  }

  lemma {:induction false} DropDrop(s: string, i: nat, k: nat)
    requires i + k <= |s|
    ensures s[i..][k..] == s[i + k..]
  {
  }

  /** From `i`, text before the first match is copied verbatim. */
  lemma {:induction false} SubSkipFrom(find: Finder, s: string, i: nat, p: nat)
    requires Advances(find) && i <= p <= |s|
    requires forall k :: i <= k < p ==> find(s[k..]).None?
    ensures Sub(find, s[i..]) == s[i..p] + Sub(find, s[p..])
    decreases p - i
  {
    if i < p {
      SubSkipFrom(find, s, i + 1, p);
      SubCopies(find, s, i);
      ConsSlice(s, i, p);
      Assoc([s[i]], s[i + 1..p], Sub(find, s[p..]));
    }
  }

  /** Where no match starts at `i`, its character is copied. */
  lemma {:induction false} SubCopies(find: Finder, s: string, i: nat)
    requires Advances(find) && i < |s| && find(s[i..]).None?
    ensures Sub(find, s[i..]) == [s[i]] + Sub(find, s[i + 1..])
  {
    DropDrop(s, i, 1);
  }

  lemma {:induction false} ConsSlice(s: string, i: nat, p: nat)
    requires i < p <= |s|
    ensures s[i..p] == [s[i]] + s[i + 1..p]
  {
  }

  lemma {:induction false} Assoc(a: string, b: string, c: string)
    ensures a + (b + c) == (a + b) + c
  {
  }

  /** Where the match `h` starts at `p`, its replacement is written and the scan
      resumes after it. */
  lemma {:induction false} SubReplaces(find: Finder, s: string, p: nat, len: nat, out: string)
    requires Advances(find) && p < |s| && find(s[p..]) == Some(Hit(len, out))
    ensures p + len <= |s|
    ensures Sub(find, s[p..]) == out + Sub(find, s[p + len..])
  {
    DropDrop(s, p, len);
  }

  /** From `i`, the first match, `h` at `p`, is replaced where it stands: the text
      before it is copied, its replacement follows, and the scan resumes right after
      the matched text. */
  lemma {:induction false} SubAtHitFrom(find: Finder, s: string, i: nat, p: nat, len: nat, out: string)
    requires Advances(find) && i <= p < |s|
    requires forall k :: i <= k < p ==> find(s[k..]).None?
    requires find(s[p..]) == Some(Hit(len, out))
    ensures p + len <= |s|
    ensures Sub(find, s[i..]) == s[i..p] + out + Sub(find, s[p + len..])
  {
    SubSkipFrom(find, s, i, p);
    SubReplaces(find, s, p, len, out);
    Assoc(s[i..p], out, Sub(find, s[p + len..]));
  }

  /** Where no match starts anywhere, `re.sub` returns its input unchanged. */
  lemma {:induction false} SubNoHit(find: Finder, s: string)
    requires Advances(find) && HitFree(find, s)
    ensures Sub(find, s) == s
  {
    assert s[0..] == s;
    SubSkipFrom(find, s, 0, |s|);
    assert s[|s|..] == [];
  }

  /** The first match, `h` at `p`, is replaced where it stands: everything before it
      is copied, its replacement follows, and the scan resumes right after the matched
      text. */
  lemma {:induction false} SubAtHit(find: Finder, s: string, p: nat, len: nat, out: string)
    requires Advances(find) && p < |s| && NoHitBefore(find, s, p) && find(s[p..]) == Some(Hit(len, out))
    ensures p + len <= |s|
    ensures Sub(find, s) == s[..p] + out + Sub(find, s[p + len..])
  {
    assert s[0..] == s;
    SubAtHitFrom(find, s, 0, p, len, out);
    assert s[0..p] == s[..p];
  }

  /** The leftmost match, `h` at `p`, is replaced where it stands and the scan
      resumes right after the matched text. */
  lemma {:induction false} SubAtFirst(find: Finder, s: string, p: nat, len: nat, out: string)
    requires Advances(find) && p < |s| && FirstMatch(find, s, 0) == p
    requires find(s[p..]) == Some(Hit(len, out))
    ensures p + len <= |s| && Sub(find, s) == s[..p] + out + Sub(find, s[p + len..])
  {
    FirstMatchIsFirst(find, s, 0);
    SubAtHit(find, s, p, len, out);
  }

  /** Without any match, `re.sub` returns its input unchanged. */
  lemma {:induction false} SubNoMatch(find: Finder, s: string)
    requires Advances(find) && FirstMatch(find, s, 0) == |s|
    ensures Sub(find, s) == s
  {
    FirstMatchIsFirst(find, s, 0);
    SubNoHit(find, s);
  }

  /** `re.sub` as Python runs it: search for the leftmost match from the current
      position, copy the text before it, append the replacement, continue after it. */
  method ReSub(find: Finder, s: string) returns (out: string)
    requires Advances(find)
    ensures out == Sub(find, s)
  {
    out := [];
    var i := 0;
    assert s[0..] == s;
    while i < |s|
      invariant i <= |s|
      invariant out + Sub(find, s[i..]) == Sub(find, s)
      decreases |s| - i
    {
      var p := Search(find, s, i);
      if p == |s| {
        CopyRest(find, s, i, out);
        out := out + s[i..];
        i := |s|;
      } else {
        var h := find(s[p..]).value;
        ReplaceNext(find, s, i, p, h.len, h.out, out);
        out := out + s[i..p] + h.out;
        i := p + h.len;
      }
    }
    EmptyRest(find, s, out);
  }

  /** One step of `ReSub` with no match left: the rest is copied. */
  lemma {:induction false} CopyRest(find: Finder, s: string, i: nat, out: string)
    requires Advances(find) && i <= |s|
    requires forall k :: i <= k < |s| ==> find(s[k..]).None?
    requires out + Sub(find, s[i..]) == Sub(find, s)
    ensures (out + s[i..]) + Sub(find, s[|s|..]) == Sub(find, s)
  {
    SubSkipFrom(find, s, i, |s|);
    assert s[i..|s|] == s[i..];
  }

  /** One step of `ReSub` at the next match, at `p`, of length `len` and replaced by
      `rep`: the text before it and `rep` are appended, and the scan resumes after it. */
  lemma {:induction false} ReplaceNext(find: Finder, s: string, i: nat, p: nat, len: nat, rep: string, out: string)
    requires Advances(find) && i <= p < |s|
    requires forall k :: i <= k < p ==> find(s[k..]).None?
    requires find(s[p..]) == Some(Hit(len, rep))
    requires out + Sub(find, s[i..]) == Sub(find, s)
    ensures p + len <= |s|
    ensures (out + s[i..p] + rep) + Sub(find, s[p + len..]) == Sub(find, s)
  {
    SubAtHitFrom(find, s, i, p, len, rep);
    Splice(out, Sub(find, s[i..]), Sub(find, s), s[i..p], rep, Sub(find, s[p + len..]));
  }

  /** Putting a split middle part back in place. */
  lemma {:induction false} Splice(out: string, mid: string, whole: string, a: string, b: string, rest: string)
    requires out + mid == whole && mid == a + b + rest
    ensures (out + a + b) + rest == whole
  {
  }

  /** When the scan reaches the end, what it built is the whole rewrite. */
  lemma {:induction false} EmptyRest(find: Finder, s: string, out: string)
    requires Advances(find) && out + Sub(find, s[|s|..]) == Sub(find, s)
    ensures out == Sub(find, s)
  {
    assert s[|s|..] == [];
  }

  /** The leftmost index at or after `i` where a match starts, or `|s|`. */
  method Search(find: Finder, s: string, i: nat) returns (p: nat)
    requires i <= |s|
    ensures i <= p <= |s|
    ensures forall k :: i <= k < p ==> find(s[k..]).None?
    ensures p < |s| ==> find(s[p..]).Some?
  {
    p := i;
    while p < |s| && find(s[p..]).None?
      invariant i <= p <= |s|
      invariant forall k :: i <= k < p ==> find(s[k..]).None?
      decreases |s| - p
    {
      p := p + 1;
    }
  }
}
